=== FILE: README.md ===
# OpenID Connect Discovery client — a Dafny model

This project models the core of a small OpenID Connect Discovery 1.0 client.
That core has two functions:

- `retrieveRawProviderMetadata(issuer, options)` builds the discovery URL from
  the issuer and fetches it. It honours an already-fired abort signal, accepts
  only status 200 with a JSON object body, and on request fills in the
  section 3 defaults of OpenID Connect Discovery 1.0 for eight keys.
- `retrieveProviderMetadata(issuer, options)` runs raw retrieval and then
  checks the document's `issuer`. The check is either an exact match against
  the caller's issuer text or, on request, a match of origins only. It then
  converts seven mandatory properties (four URLs, three string arrays) and
  thirteen optional ones. An optional property is converted exactly when its
  key is present. The raw document is attached to the result unchanged.

Everything is modelled as pure functions over an already-decoded JSON value:

| module | file | models |
|---|---|---|
| `Outcomes` | outcomes.dfy | `Option`, `Result`, and one `Error` constructor per way a call fails |
| `Json` | json.dfy | decoded JSON values, JavaScript truthiness, `typeof`, `Array.isArray` and `String(v)` |
| `Urls` | urls.dfy | a simplified `new URL(s)` (`ParseUrl`), `href` (`Href`) and `origin` (`Origin`) |
| `Options` | options.dfy | `OidcDiscoveryOptions`, with an abort signal observed at call time |
| `Metadata` | metadata.dfy | `RawProviderMetadata` as a map, `ProviderMetadata` as a datatype, and the table of the twenty converted properties |
| `Raw` | raw.dfy | discovery URL, abort check, status and shape gates, defaults |
| `Parsed` | parsed.dfy | `ensureStringArray`, the issuer check, field conversion, the whole call |

The network is a parameter `fetch: string -> Response`. A response is either
a rejection or a status with a body decoded as JSON (None when the body is not
JSON text). "No request is made" is stated as "the outcome is the same for
every `fetch`". "Only the discovery URL is requested" is stated as "two
networks that answer that URL alike give the same outcome".

Field conversion is table-driven. `Metadata.Fields` lists the twenty
converted keys in the order the source converts them, each with its kind (URL
or string array) and whether it is mandatory. `Parsed.ConvertFields` converts
them in order and stops at the first failure. `Parsed.Build` places the
values in the named fields of `ProviderMetadata`. The lemmas in the named-field
section restate the outcome key by key.

## Model

| member | source | states |
|---|---|---|
| Json.ToJsString | parsed.ts:67-70 | `String(v)`, which `new URL(v)` applies to a non-string property, or None where it throws; `Json.ToJsStringThrows`, `Json.ArrayTextJoins`, `Json.StringArrayText` and `Json.NonStringTextHasNoColon` state what it yields |
| Json.ToJsStringThrows | parsed.ts:67-70 | `String(v)` throws exactly on an object with its own "toString" member (not callable, and `valueOf` gives no primitive) and on an array holding such a value at any depth |
| Json.ArrayTextJoins | parsed.ts:67-70 | An array's text is its elements' texts (null elements as "") joined with ",", and there is none exactly when some element has none |
| Json.StringArrayText | parsed.ts:67-70 | An array of strings renders as the strings joined with "," |
| Json.NatToDecimal | parsed.ts:67-70 | The decimal text of a number denotes that number, with no leading zero |
| Json.AsStrings | parsed.ts:20-26 | Returns Some exactly when every element is a string; the strings then match the elements one for one, in order |
| Json.AsStringsOfStringArray | parsed.ts:20-28 | An array built from strings converts back to exactly those strings |
| Json.NonStringTextHasNoColon | parsed.ts:67-70 | The JavaScript text of null, a boolean, a number or an object contains no ':', so `new URL` can never accept such a value; only an object with its own "toString" member has no text |
| Json.SingletonArrayText | parsed.ts:67-70 | `String(["x"])` is "x", so `new URL` accepts a one-element array holding URL text |
| Urls.ParseUrl | raw.ts:18 | `new URL(s)` for absolute text: None where it throws; `Urls.ParseHref`, `Urls.ParsedIsWellFormed` and `Urls.ParseIsIdempotent` relate it to `href` |
| Urls.Href | raw.ts:22 | `URL.href`, the serialised URL; `Urls.ParseHref` makes it the inverse of the parser on well-formed URLs |
| Urls.Origin | parsed.ts:52 | `URL.origin`; `Urls.OriginPrefixesHref`, `Urls.OriginIgnoresPath`, `Urls.SameOriginSameAuthority` and `Urls.OpaqueOriginsCompareEqual` state what it compares |
| Urls.OriginPrefixesHref | parsed.ts:52 | A special-scheme URL's origin is the beginning of its href and never the opaque "null" |
| Urls.ParseAppendSlash | raw.ts:17-18 | Text that parses, has no '?' or '#' and no final '/' parses, with a '/' appended, to the same URL with a final '/' on its path (unchanged when normalisation already gave it one) |
| Urls.ParseHref | raw.ts:21-26 | Parsing the href of any well-formed URL gives that URL back |
| Urls.ParsedIsWellFormed | raw.ts:17-19 | Every URL the parser yields is well formed: lower-case scheme, no delimiters in the host, digits-only non-default port, a non-empty path for special schemes |
| Urls.ParseIsIdempotent | raw.ts:17-26 | Re-parsing the href of a parsed URL yields the same URL |
| Urls.NoColonIsNotUrl | parsed.ts:67-70 | Text without a ':' never parses as an absolute URL |
| Urls.OriginIgnoresPath | parsed.ts:48-56 | URLs that agree on scheme, host and port have equal origins, whatever their paths, queries and fragments |
| Urls.SameOriginSameAuthority | parsed.ts:52 | Two well-formed special-scheme URLs with equal origins agree on scheme, host and port |
| Urls.OpaqueOriginsCompareEqual | parsed.ts:52 | Any two URLs of non-special schemes have the origin "null" and so compare equal |
| Urls.ParseHostPath | parsed.ts:50-51 | "scheme://host/path" parses into exactly that scheme, host and path, with no port, query or fragment |
| Raw.ArgText | parsed.ts:58 | `issuer.toString()`: the string as given, or the URL object's href; `Raw.ArgTextDenotesIssuerUrl` ties it to the URL used for discovery |
| Raw.ArgTextDenotesIssuerUrl | parsed.ts:58 | The caller's issuer text parses to exactly the URL retrieval builds the discovery URL from, and fails to parse exactly when retrieval rejects the issuer |
| Raw.IssuerUrlOf | raw.ts:17-19 | A URL object is used as given; a string succeeds exactly when it parses, yielding the parsed URL, and otherwise fails with InvalidIssuerUrl |
| Raw.DiscoverySuffix | raw.ts:23-25 | The suffix is the well-known path alone exactly when the issuer's path ends in '/', and otherwise the well-known path after a '/' |
| Raw.DiscoveryUrl | raw.ts:21-26 | The discovery URL is the issuer's href followed by ".well-known/openid-configuration", with one character more exactly when the issuer's path does not end in '/', so a '/' is inserted only then, whether or not the issuer has a query or fragment; without query and fragment, or with a path not ending in '/', it ends in "/.well-known/openid-configuration" |
| Raw.ParseDiscoveryUrl | raw.ts:21-26 | The discovery URL parses back to the issuer with the suffix appended to its last non-empty component, and it has the issuer's origin |
| Raw.DiscoveryPath | raw.ts:21-26 | For an issuer without query or fragment, the requested path ends in "/.well-known/openid-configuration" |
| Raw.DiscoveryPathNoDoubledSlash | raw.ts:23-25 | The '/' is added only when the issuer's path lacks one: a path without a doubled final '/' never yields "//.well-known/openid-configuration" |
| Raw.TrailingSlashSameDiscoveryUrl | raw.ts:23-25 | Adding a trailing '/' to a path that lacks one leaves the discovery URL unchanged |
| Raw.HostOnlyIssuer | raw.ts:17-19 | "scheme://host" and "scheme://host/" parse to the same URL, whose path is "/" |
| Raw.TrailingSlashStringIssuer | raw.ts:17-26 | Any string issuer that parses, has no query or fragment and no final '/' yields the same raw outcome as that text with '/' appended (the "https://foo.bar" pair of tests/raw_test.ts is one instance) |
| Raw.TrailingSlashUrlIssuer | raw.ts:21-26 | A URL issuer with or without a trailing '/' on its path yields the same raw outcome |
| Raw.SameDiscoveryUrlSameRaw | raw.ts:21-34 | Two issuers that parse to URLs with the same discovery URL give the same outcome |
| Raw.SameIssuerUrlSameRaw | raw.ts:17-34 | Raw retrieval depends on the issuer argument only through the URL it denotes |
| Raw.CheckResponse | raw.ts:34-47 | A response succeeds exactly when it is status 200 with a JSON object body, whose members it returns. A rejection fails with TransportFailure, another status with BadStatus carrying that status, non-JSON text with MalformedJson, and any other JSON value with NotAnObject |
| Raw.RejectedBody | raw.ts:42-45 | The falsy, `typeof` and `Array.isArray` tests together turn away exactly the JSON values that are not objects |
| Raw.ShapeGate | raw.ts:42-47 | The falsy / non-object / array test rejects exactly the JSON values that are not objects |
| Raw.StatusGate | raw.ts:35-39 | Any status other than 200 fails with BadStatus of that status, whatever the body |
| Raw.AbortedNeverFetches | raw.ts:29-32 | With an already-fired signal the outcome does not depend on the network, and it is the signal's reason once the issuer parses |
| Raw.FetchesOnlyDiscoveryUrl | raw.ts:34 | Two networks that answer the discovery URL alike give the same outcome |
| Raw.RetrieveRaw | raw.ts:13-88 | An unparseable issuer string fails with InvalidIssuerUrl of that string, before anything else; a fired signal always ends in an error; success implies the issuer parsed and the response passed both gates |
| Raw.RetrieveRawOutcome | raw.ts:28-87 | Once the issuer parses and no signal has fired, the outcome is the gates' error, or the body object, or the body object with the defaults when they are requested |
| Raw.NoDefaultsPassesBodyThrough | raw.ts:49-87 | Without `setDefaults` the document is the decoded object exactly, including null values and vendor keys |
| Raw.AbsentOptions | options.ts:4-22 | Omitting the options behaves like an options object with every property left out: no defaults, exact issuer matching, no signal |
| Raw.SetIfAbsent | raw.ts:53-55 | Adds the key; a value already present is kept, and an absent key receives the given value |
| Raw.SetEachIfAbsentIsUnion | raw.ts:52-86 | Setting each entry in turn when absent equals the map union with the present keys winning |
| Raw.ApplyDefaults | raw.ts:52-86 | The defaulted document is the defaults overridden by the document |
| Raw.DefaultsAsDocumented | options.ts:10-15 | The defaults cover exactly the eight keys the option's documentation lists |
| Raw.DefaultValuesAsDocumented | raw.ts:53-85 | The defaults are `["query","fragment"]`, `["authorization_code","implicit"]`, `["client_secret_basic"]`, `["normal"]`, false, false, true, false under their keys |
| Raw.ApplyDefaultsOnlyAdds | raw.ts:52-86 | Defaults add only the eight keys, keep every present value (even false or an empty array), and give each added key its default |
| Raw.ApplyDefaultsIdempotent | raw.ts:53-85 | Applying the defaults twice is the same as applying them once |
| Raw.DefaultsConform | provider-metadata.ts:190-302 | Each default has the type the raw document declares for its key: four string arrays and four booleans |
| Metadata.FieldTableMatchesKeys | provider-metadata.ts:4-123 | The first seven table entries are the mandatory keys and the other thirteen the optional ones; the URL entries are exactly the URL-typed keys |
| Metadata.ArrayEntriesMatchKeys | parsed.ts:71-82 | The string-array entries of the table are exactly the keys converted with `ensureStringArray` |
| Metadata.MandatoryKeysInTable | parsed.ts:66-84 | Every mandatory key has an entry among the first seven |
| Metadata.OptionalKeysInTable | parsed.ts:88-169 | Every optional key has an entry among the last thirteen |
| Metadata.DeclaredTypesOfParsedKeys | provider-metadata.ts:129-392 | The raw type declares every URL key as a string and every array key as a string array |
| Parsed.EnsureStringArray | parsed.ts:13-29 | Succeeds exactly on arrays of strings, returning the array's strings unchanged; a non-array (or a missing value) fails with NotStringArray, and a non-string element with NonStringElement, both naming the key |
| Parsed.UrlProperty | parsed.ts:67-70 | `new URL(doc[key])` succeeds exactly when the property has JavaScript text and that text parses; it fails with NotConvertible naming the key when `String(v)` throws, and otherwise with InvalidUrl naming the key and the text |
| Parsed.ThrowingValueRejected | parsed.ts:67-70 | A present value on which `String(v)` throws fails with NotConvertible naming the key, and under a URL key it makes conversion fail |
| Parsed.UrlPropertyOk | parsed.ts:67-70 | A URL property converts exactly when its key is present and its text is a URL; a missing key is "undefined" and never parses |
| Parsed.ConvertField | parsed.ts:88-90 | One table entry converts exactly when it is valid for the document; on success the value is the converted property, or absent for a missing optional key; a failure names that entry's key |
| Parsed.ConvertUrlField | parsed.ts:67-70 | A URL property converts exactly when present with URL text, to what that text parses to; a failure is InvalidUrl or NotConvertible naming the key |
| Parsed.ConvertArrayField | parsed.ts:71-82 | An array property converts exactly when present as an array of strings, to those strings |
| Parsed.ConvertFields | parsed.ts:66-169 | Converting in order succeeds exactly when every entry is valid, and then yields one converted value per entry; otherwise the result is the error of the first invalid entry, which names its key |
| Parsed.ConvertMetadata | parsed.ts:66-171 | Conversion succeeds exactly when all twenty entries are valid; the result keeps the document as `raw` and every field holds its key's conversion; otherwise it fails with the error of the first invalid entry in source order |
| Parsed.ConvertMetadataAcceptable | parsed.ts:66-169 | Conversion succeeds exactly when all mandatory keys are present, every present URL key holds URL text, and every present array key holds an array of strings |
| Parsed.InvalidEntryUnacceptable | parsed.ts:66-169 | A table entry that fails to convert makes the document unacceptable |
| Parsed.MissingMandatoryKeyRejected | parsed.ts:66-84 | A document lacking any one of the seven mandatory keys is rejected |
| Parsed.ScalarValueRejected | parsed.ts:88-169 | A converted key that is present but holds neither a string nor an array (null, a boolean, a number, an object) is rejected, not skipped |
| Parsed.IssuerField | parsed.ts:67 | `issuer` holds what the raw "issuer" text parses to |
| Parsed.AuthorizationEndpointField | parsed.ts:68 | `authorizationEndpoint` holds what the raw "authorization_endpoint" text parses to |
| Parsed.TokenEndpointField | parsed.ts:69 | `tokenEndpoint` holds what the raw "token_endpoint" text parses to |
| Parsed.JwksUriField | parsed.ts:70 | `jwksUri` holds what the raw "jwks_uri" text parses to |
| Parsed.MandatoryArrayFields | parsed.ts:71-82 | The three mandatory arrays equal their raw arrays element for element |
| Parsed.OptionalUrlFields | parsed.ts:88-162 | Each of the six optional URL fields is set exactly when its key is present, and then holds what the key's text parses to |
| Parsed.OptionalArrayFields | parsed.ts:98-169 | Each of the seven optional array fields is set exactly when its key is present, and then holds the strings of the key's array |
| Parsed.ValidateIssuer | parsed.ts:48-63 | Exact mode passes exactly when the raw issuer is the string form of the caller's argument, and otherwise fails with IssuerMismatch; origin-only mode passes exactly when both issuers parse and their origins are equal, and otherwise fails with InvalidUrl for the document's issuer, InvalidIssuerUrl for the caller's, or IssuerOriginMismatch, in that order |
| Parsed.ExactImpliesOriginMatch | parsed.ts:48-63 | An issuer that passes the exact check also passes the origin-only check, provided the caller's issuer text parses |
| Parsed.OriginCheckPasses | parsed.ts:48-56 | Origin-only mode passes once both issuers parse to URLs of the same origin |
| Parsed.HostOnlyIssuerUrl | tests/parsed_test.ts:89-97 | A host-only issuer document parses to the URL with path "/" |
| Parsed.HostOnlyTextIssuerMatches | tests/parsed_test.ts:89-91 | A document repeating a host-only string issuer passes the exact check |
| Parsed.HostOnlyUrlIssuerMismatches | parsed.ts:58 | The same document fails the exact check when the caller passes the URL object, whose string form ends in '/' |
| Parsed.HostOnlyUrlIssuerOriginMatches | parsed.ts:48-56 | That document passes the origin-only check for the URL object |
| Parsed.TenantIssuerOriginMatches | tests/parsed_test.ts:419-467 | A tenant-template issuer on the same host as the "common" issuer fails the exact check whenever the two paths differ, and passes the origin-only check |
| Parsed.RetrieveParsed | parsed.ts:42-172 | Raw-retrieval failures propagate unchanged; after a successful retrieval a failed issuer check is the result, and after a passed one the error of the first invalid entry; success implies raw retrieval returned the result's `raw` and that document passed the issuer check |
| Parsed.RetrieveParsedSucceeds | parsed.ts:42-172 | The whole call succeeds exactly when raw retrieval succeeds, the issuer check passes, and the document is acceptable |
| Parsed.RetrieveParsedResult | parsed.ts:66-84 | A successful call returns the conversion of the retrieved document, which it keeps as `raw` |
| Parsed.AbsentOptionsParsed | parsed.ts:48 | Omitting the options is the same as passing an empty options object |

## Where the code goes beyond its declared types and the standard

The model follows the code in each of these cases.

- provider-metadata.ts declares the URL properties as `string`, but
  `new URL(v)` converts any value with JavaScript's `String(v)`. So a URL
  property holding a one-element array of URL text is accepted
  (`Json.SingletonArrayText`). The same conversion throws on an object with
  its own "toString" member, even inside an array: a `jwks_uri` of
  `["https://a/", {"toString": 0}]` fails with NotConvertible before any
  parsing (`Json.ToJsStringThrows`, `Parsed.ThrowingValueRejected`).
- Section 4 of OpenID Connect Discovery 1.0 appends the well-known path to
  the issuer's path. The code appends it to the whole href instead. For an
  issuer with a query or fragment the suffix therefore lands in that query or
  fragment (`Raw.ParseDiscoveryUrl`). Whether a '/' is inserted still depends
  only on the path. So when such an issuer's path ends in '/', no '/' is
  inserted. Unless the query or fragment itself ends in '/', the discovery
  URL then has no '/' before ".well-known/openid-configuration"
  (`Raw.DiscoveryUrl`).
- A URL of a non-special scheme has the opaque origin "null". Origin-only
  matching therefore accepts any two such URLs
  (`Urls.OpaqueOriginsCompareEqual`).
- In exact mode the raw issuer is compared with the caller's own argument:
  the string as given, or the URL object's href. A document that repeats
  "https://foo.bar" passes for the string and fails for `new URL("https://foo.bar")`
  (`Parsed.HostOnlyTextIssuerMatches`, `Parsed.HostOnlyUrlIssuerMismatches`).

## Left out

- The real `fetch`, `credentials: "omit"` and an abort that fires during the
  request: these are I/O and concurrency. The network is the `fetch`
  parameter, and the signal is observed once, when the call starts.
- Decoding the body text as JSON: a body is given already decoded, or None
  when it is not JSON text.
- JSON numbers are modelled as unbounded integers, and `Json.ToJsString`
  writes out every digit. JavaScript numbers are doubles: integers beyond
  2^53 are rounded, `String(n)` uses exponent form from 1e21 on, and
  fractional numbers are not modelled at all. A number on its own never
  parses as a URL either way, since number text never contains ':'. Inside
  an array it can, and then the parsed URL differs: for
  `["https://a/", 1e21]` `new URL` gives the path "/,1e+21", where the
  model gives "/,1000000000000000000000".
- Error message texts: each error is a constructor carrying the key, status
  or reason, not the English message.
- Urls.ParseUrl: this is a simplified `new URL`. It does not model
  percent-encoding (the `{` and `}` of a tenant template would be encoded),
  IDNA and IPv4 host normalisation, IPv6 literals, userinfo (rejected here),
  dot-segment removal, trimming of whitespace and control characters, the
  port range check, backslashes, scheme-relative forms or URLs without "//",
  or the file scheme. Many of these change what the model computes. Among
  them, for example:
  - "https://a/b/../c" keeps the path "/b/../c", where `new URL` gives "/c",
    so both the discovery URL and a parsed issuer differ;
  - " https://a" (leading space) and "https:a" are rejected, where
    `new URL` accepts them;
  - the "{tenant}" of a tenant template stays unencoded in `Href`, where
    `new URL` writes "%7Btenant%7D";
  - the port is kept as written, so "https://h:0443" keeps the port "0443"
    and has a different origin from "https://h", where `new URL` reads 443,
    drops it as the default and origin-only mode would pass;
  - extra slashes after a special scheme ("https:///a") are rejected, where
    `new URL` skips them and reads the host "a";
  - forbidden host code points such as a space are accepted, where
    `new URL` throws;
  - a non-special URL with an empty host and a port ("foo://:80") is
    accepted with host "" and port "80", where `new URL` throws.
- Mutation: the source fills defaults into the decoded object in place and
  attaches that same object as `raw`. Here the defaulted document is a new map
  and `raw` is equal to it.
- mod.ts (re-exports), the examples directory (command-line plumbing) and
  tests/utils.ts (a disposable helper). The tests are used only as a source
  of properties.

=== FILE: json.dfy ===
/**
 An already-decoded JSON value, and the handful of JavaScript operations the
 discovery code applies to such values: truthiness, `typeof`, `Array.isArray`
 and the string conversion `String(v)` that `new URL(v)` performs on its
 argument.
 */
module Json {
  import opened Outcomes

  /** A decoded JSON value. Numbers are modelled as integers. */
  datatype JVal =
    | JNull
    | JBool(b: bool)
    | JNum(n: int)
    | JStr(s: string)
    | JArr(arr: seq<JVal>)
    | JObj(obj: map<string, JVal>)

  /** JavaScript truthiness of a JSON value (`!!v`). */
  predicate Truthy(v: JVal) {
    match v
    case JNull => false
    case JBool(b) => b
    case JNum(n) => n != 0
    case JStr(s) => s != ""
    case JArr(_) => true
    case JObj(_) => true
  }

  /** JavaScript `typeof v` for a JSON value; `null` and arrays report "object". */
  function TypeOf(v: JVal): string {
    match v
    case JNull => "object"
    case JBool(_) => "boolean"
    case JNum(_) => "number"
    case JStr(_) => "string"
    case JArr(_) => "object"
    case JObj(_) => "object"
  }

  /** JavaScript `Array.isArray(v)`. */
  predicate IsArray(v: JVal) {
    v.JArr?
  }

  predicate IsDigit(c: char) {
    '0' <= c <= '9'
  }

  /** Decimal rendering of a natural number, as `String(n)` produces it. */
  function NatToDecimal(n: nat): (r: string)
    ensures |r| > 0
    ensures forall i :: 0 <= i < |r| ==> IsDigit(r[i])
    ensures DecimalValue(r) == n
    ensures |r| > 1 ==> r[0] != '0'
  {
    var d := [('0' as int + n % 10) as char];
    if n < 10 then d
    else
      var r := NatToDecimal(n / 10) + d;
      assert r[..|r| - 1] == NatToDecimal(n / 10);
      r
  }

  /** The number a string of decimal digits denotes. */
  function DecimalValue(s: string): nat
    requires forall i :: 0 <= i < |s| ==> IsDigit(s[i])
  {
    if s == [] then 0
    else
      assert IsDigit(s[|s| - 1]);
      DecimalValue(s[..|s| - 1]) * 10 + (s[|s| - 1] as int - '0' as int)
  }

  /** Decimal rendering of an integer, with a leading '-' when negative. */
  function IntToDecimal(n: int): (r: string)
    ensures forall i :: 0 <= i < |r| ==> IsDigit(r[i]) || r[i] == '-'
  {
    if n < 0 then "-" + NatToDecimal(-n) else NatToDecimal(n)
  }

  /** JavaScript `String(v)` for a JSON value, or None where it throws. An
      array renders as its elements joined by commas, with `null` elements
      rendering as the empty string. An object renders as "[object Object]"
      through the inherited `toString`, unless it has its own "toString"
      member: a JSON value is never callable, and the fallback `valueOf`
      returns the object itself, so the conversion throws a TypeError. */
  function ToJsString(v: JVal): Option<string>
    decreases v, 1, 0
  {
    match v
    case JNull => Some("null")
    case JBool(b) => Some(if b then "true" else "false")
    case JNum(n) => Some(IntToDecimal(n))
    case JStr(s) => Some(s)
    case JArr(_) => JoinItems(v, 0)
    case JObj(o) => if "toString" in o then None else Some("[object Object]")
  }

  /** `Array.prototype.join(",")` over the elements of `v` from index `i` on;
      None as soon as an element's conversion throws. */
  function JoinItems(v: JVal, i: nat): Option<string>
    requires v.JArr? && i <= |v.arr|
    decreases v, 0, |v.arr| - i
  {
    if i == |v.arr| then Some("")
    else
      var item := if v.arr[i].JNull? then Some("") else ToJsString(v.arr[i]);
      if item.None? then None
      else if i + 1 == |v.arr| then item
      else
        match JoinItems(v, i + 1)
        case None => None
        case Some(rest) => Some(item.value + "," + rest)
  }

  /** `String(o[key])` for a property lookup: a missing property is `undefined`. */
  function PropertyText(p: Option<JVal>): Option<string> {
    match p
    case None => Some("undefined")
    case Some(v) => ToJsString(v)
  }

  /** `String(v)` throws exactly on an object with its own "toString" member
      and on an array that holds such a value, at any depth. */
  predicate Throws(v: JVal) {
    match v
    case JObj(o) => "toString" in o
    case JArr(a) => exists i :: 0 <= i < |a| && Throws(a[i])
    case _ => false
  }

  /** The text an array element contributes to the join: `null` contributes
      the empty string. */
  function ItemText(x: JVal): Option<string> {
    if x.JNull? then Some("") else ToJsString(x)
  }

  /** The texts of all elements, or None if any element's conversion throws. */
  function ItemTexts(items: seq<JVal>): (r: Option<seq<string>>)
    ensures r.Some? ==> |r.value| == |items|
  {
    if items == [] then Some([])
    else
      match (ItemText(items[0]), ItemTexts(items[1..]))
      case (Some(t), Some(ts)) => Some([t] + ts)
      case _ => None
  }

  /** Strings joined with "," between neighbours. */
  function JoinWithCommas(ss: seq<string>): string {
    if ss == [] then ""
    else if |ss| == 1 then ss[0]
    else ss[0] + "," + JoinWithCommas(ss[1..])
  }
  /** A JSON array of strings holding exactly `ss`. */
  function StringArray(ss: seq<string>): (r: JVal)
    ensures r.JArr? && |r.arr| == |ss|
    ensures forall i :: 0 <= i < |ss| ==> r.arr[i] == JStr(ss[i])
  {
    JArr(StringItems(ss))
  }

  /** The elements of `StringArray(ss)`, one JSON string per string. */
  function StringItems(ss: seq<string>): (r: seq<JVal>)
    ensures |r| == |ss|
    ensures forall i :: 0 <= i < |ss| ==> r[i] == JStr(ss[i])
  {
    if ss == [] then [] else [JStr(ss[0])] + StringItems(ss[1..])
  }

  /** True if `v` is an array every element of which is a string. */
  predicate IsStringArray(v: JVal) {
    v.JArr? && forall i :: 0 <= i < |v.arr| ==> v.arr[i].JStr?
  }

  /** The strings held by `items`, or None if some element is not a string. */
  function AsStrings(items: seq<JVal>): (r: Option<seq<string>>)
    ensures r.Some? <==> forall i :: 0 <= i < |items| ==> items[i].JStr?
    ensures r.Some? ==> |r.value| == |items|
    ensures r.Some? ==> forall i :: 0 <= i < |items| ==> items[i] == JStr(r.value[i])
  {
    if items == [] then Some([])
    else if !items[0].JStr? then None
    else
      match AsStrings(items[1..])
      case None => None
      case Some(rest) => Some([items[0].s] + rest)
  }

  /** An array of strings converts back to the same strings. */
  lemma AsStringsOfStringArray(ss: seq<string>)
    ensures AsStrings(StringArray(ss).arr) == Some(ss)
  {
    var r := AsStrings(StringArray(ss).arr);
    assert r.Some?;
    assert r.value == ss;
  }

  /** The JavaScript text of any scalar or object value has no ':' in it, so it
      can never be an absolute URL. Only strings and arrays can. An object
      with its own "toString" member has no text at all. */
  lemma NonStringTextHasNoColon(v: JVal)
    requires !v.JStr? && !v.JArr?
    ensures ToJsString(v).None? <==> v.JObj? && "toString" in v.obj
    ensures ToJsString(v).Some? ==> ':' !in ToJsString(v).value
  {
  }

  /** A missing property renders as "undefined", which has no ':' either. */
  lemma MissingPropertyTextHasNoColon()
    ensures PropertyText(None).Some? && ':' !in PropertyText(None).value
  {
  }

  /** `String(v)` throws exactly where `Throws` says. */
  lemma {:induction false} ToJsStringThrows(v: JVal)
    ensures ToJsString(v).None? <==> Throws(v)
    decreases v, 1, 0
  {
    if v.JArr? {
      JoinItemsThrows(v, 0);
    }
  }

  lemma {:induction false} JoinItemsThrows(v: JVal, i: nat)
    requires v.JArr? && i <= |v.arr|
    ensures JoinItems(v, i).None? <==> exists j :: i <= j < |v.arr| && Throws(v.arr[j])
    decreases v, 0, |v.arr| - i
  {
    if i < |v.arr| {
      ToJsStringThrows(v.arr[i]);
      JoinItemsThrows(v, i + 1);
      if v.arr[i].JNull? {
        assert !Throws(v.arr[i]);
      }
    }
  }

  /** An array's text is the texts of its elements joined with commas, and it
      has none exactly when some element has none. */
  lemma ArrayTextJoins(items: seq<JVal>)
    ensures ToJsString(JArr(items)).None? <==> ItemTexts(items).None?
    ensures ItemTexts(items).Some? ==> ToJsString(JArr(items)) == Some(JoinWithCommas(ItemTexts(items).value))
  {
    JoinItemsFrom(JArr(items), 0);
    assert items[0..] == items;
  }

  lemma {:induction false} JoinItemsFrom(v: JVal, i: nat)
    requires v.JArr? && i <= |v.arr|
    ensures JoinItems(v, i).None? <==> ItemTexts(v.arr[i..]).None?
    ensures ItemTexts(v.arr[i..]).Some? ==> JoinItems(v, i) == Some(JoinWithCommas(ItemTexts(v.arr[i..]).value))
    decreases |v.arr| - i
  {
    if i < |v.arr| {
      JoinItemsFrom(v, i + 1);
      var tail := v.arr[i..];
      assert tail[0] == v.arr[i];
      assert tail[1..] == v.arr[i + 1..];
      assert ItemText(v.arr[i]) == (if v.arr[i].JNull? then Some("") else ToJsString(v.arr[i]));
    }
  }

  /** An array of strings renders as those strings joined with commas:
      `String(["a", "b"]) == "a,b"`. */
  lemma StringArrayText(ss: seq<string>)
    ensures ToJsString(StringArray(ss)) == Some(JoinWithCommas(ss))
  {
    var items := StringArray(ss).arr;
    assert ItemTexts(items) == Some(ss) by {
      StringItemTexts(items, ss);
    }
    ArrayTextJoins(items);
  }

  lemma {:induction false} StringItemTexts(items: seq<JVal>, ss: seq<string>)
    requires |items| == |ss|
    requires forall i :: 0 <= i < |ss| ==> items[i] == JStr(ss[i])
    ensures ItemTexts(items) == Some(ss)
    decreases |ss|
  {
    if ss != [] {
      StringItemTexts(items[1..], ss[1..]);
      assert ss == [ss[0]] + ss[1..];
    }
  }

  /** A one-element array of strings renders as that string: `String(["x"]) == "x"`. */
  lemma SingletonArrayText(s: string)
    ensures ToJsString(JArr([JStr(s)])) == Some(s)
  {
    assert StringArray([s]).arr == [JStr(s)];
    StringArrayText([s]);
  }
}

=== FILE: metadata.dfy ===
/**
 The two shapes of an OpenID provider's metadata: the raw document as the
 provider publishes it (a JSON object keyed by snake_case names), and the
 parsed form with URL objects and string arrays under camelCase names.
 */
module Metadata {
  import opened Outcomes
  import opened Json
  import opened Urls

  /** The raw provider document: the members of a JSON object. Keys the type
      below does not declare (vendor extensions) are kept like any other. */
  type RawDoc = map<string, JVal>

  /** `o[key]`: the value stored under `key`, or None when it is `undefined`. */
  function Get(doc: RawDoc, key: string): (r: Option<JVal>)
    ensures r.Some? <==> key in doc
    ensures r.Some? ==> r.value == doc[key]
  {
    if key in doc then Some(doc[key]) else None
  }

  /** The value types the raw document declares for its keys. */
  datatype WireType = StringType | StringArrayType | BooleanType | NullableStringType

  /** True when `v` has the declared type `t`. */
  predicate Conforms(v: JVal, t: WireType) {
    match t
    case StringType => v.JStr?
    case StringArrayType => IsStringArray(v)
    case BooleanType => v.JBool?
    case NullableStringType => v.JStr? || v.JNull?
  }

  /** The keys the raw document declares as strings. */
  const StringKeys: set<string> := {
    "issuer", "authorization_endpoint", "token_endpoint", "jwks_uri", "userinfo_endpoint",
    "registration_endpoint", "service_documentation", "op_policy_uri", "op_tos_uri",
    "check_session_iframe", "end_session_endpoint", "device_authorization_endpoint",
    "introspection_endpoint", "revocation_endpoint", "kerberos_endpoint", "cloud_instance_name",
    "cloud_graph_host_name", "msgraph_host", "rbac_url"
  }

  /** The keys the raw document declares as arrays of strings. */
  const StringArrayKeys: set<string> := {
    "response_types_supported", "subject_types_supported", "id_token_signing_alg_values_supported",
    "scopes_supported", "response_modes_supported", "grant_types_supported",
    "acr_values_supported", "id_token_encryption_alg_values_supported",
    "id_token_encryption_enc_values_supported", "userinfo_signing_alg_values_supported",
    "userinfo_encryption_alg_values_supported", "userinfo_encryption_enc_values_supported",
    "request_object_signing_alg_values_supported",
    "request_object_encryption_alg_values_supported",
    "request_object_encryption_enc_values_supported", "token_endpoint_auth_methods_supported",
    "token_endpoint_auth_signing_alg_values_supported", "display_values_supported",
    "claim_types_supported", "claims_supported", "claims_locales_supported",
    "ui_locales_supported", "code_challenge_methods_supported",
    "introspection_endpoint_auth_methods_supported", "revocation_endpoint_auth_methods_supported"
  }

  /** The keys the raw document declares as booleans. */
  const BooleanKeys: set<string> := {
    "claims_parameter_supported", "request_parameter_supported", "request_uri_parameter_supported",
    "require_request_uri_registration", "frontchannel_logout_supported"
  }

  /** The keys the raw document declares as a string or null. */
  const NullableStringKeys: set<string> := {
    "tenant_region_scope"
  }

  /** True when the raw document declares `key` with value type `t`. */
  predicate DeclaredAs(key: string, t: WireType) {
    match t
    case StringType => key in StringKeys
    case StringArrayType => key in StringArrayKeys
    case BooleanType => key in BooleanKeys
    case NullableStringType => key in NullableStringKeys
  }

  /** The four mandatory keys whose values become URL objects. */
  const MandatoryUrlKeys: set<string> := {"issuer", "authorization_endpoint", "token_endpoint", "jwks_uri"}

  /** The three mandatory keys whose values must be arrays of strings. */
  const MandatoryArrayKeys: set<string> := {
    "response_types_supported", "subject_types_supported", "id_token_signing_alg_values_supported"
  }

  const MandatoryKeys: set<string> := MandatoryUrlKeys + MandatoryArrayKeys

  /** The six optional keys that are parsed into URL objects when present. */
  const OptionalUrlKeys: set<string> := {
    "userinfo_endpoint", "registration_endpoint", "check_session_iframe",
    "end_session_endpoint", "device_authorization_endpoint", "revocation_endpoint"
  }

  /** The seven optional keys that are checked to be string arrays when present. */
  const OptionalArrayKeys: set<string> := {
    "scopes_supported", "response_modes_supported", "grant_types_supported",
    "claims_supported", "token_endpoint_auth_methods_supported",
    "code_challenge_methods_supported", "revocation_endpoint_auth_methods_supported"
  }

  const OptionalKeys: set<string> := OptionalUrlKeys + OptionalArrayKeys

  /** The parsed provider metadata: seven mandatory fields, thirteen optional
      fields that are either absent or hold a parsed value, and the raw
      document they were read from. */
  datatype ProviderMetadata = ProviderMetadata(
    issuer: Url,
    authorizationEndpoint: Url,
    tokenEndpoint: Url,
    jwksUri: Url,
    responseTypesSupported: seq<string>,
    subjectTypesSupported: seq<string>,
    idTokenSigningAlgValuesSupported: seq<string>,
    userinfoEndpoint: Option<Url>,
    registrationEndpoint: Option<Url>,
    scopesSupported: Option<seq<string>>,
    responseModesSupported: Option<seq<string>>,
    grantTypesSupported: Option<seq<string>>,
    claimsSupported: Option<seq<string>>,
    tokenEndpointAuthMethodsSupported: Option<seq<string>>,
    checkSessionIframe: Option<Url>,
    endSessionEndpoint: Option<Url>,
    codeChallengeMethodsSupported: Option<seq<string>>,
    deviceAuthorizationEndpoint: Option<Url>,
    revocationEndpoint: Option<Url>,
    revocationEndpointAuthMethodsSupported: Option<seq<string>>,
    raw: RawDoc)

  /** How a raw property is converted: parsed as a URL, or checked to be an
      array of strings. */
  datatype FieldKind = UrlField | ArrayField

  /** A converted property: its raw key, how it is converted, and whether the
      document must have it. */
  datatype Field = Field(key: string, kind: FieldKind, mandatory: bool)

  /** A converted value: a URL, an array of strings, or nothing for an
      optional property whose key is absent. */
  datatype FieldValue = UrlValue(url: Url) | ArrayValue(items: seq<string>) | Absent

  /** The twenty converted properties, in the order they are converted:
      first the seven mandatory ones, then the thirteen optional ones. */
  const Fields: seq<Field> := [
    Field("issuer", UrlField, true),
    Field("authorization_endpoint", UrlField, true),
    Field("token_endpoint", UrlField, true),
    Field("jwks_uri", UrlField, true),
    Field("response_types_supported", ArrayField, true),
    Field("subject_types_supported", ArrayField, true),
    Field("id_token_signing_alg_values_supported", ArrayField, true),
    Field("userinfo_endpoint", UrlField, false),
    Field("registration_endpoint", UrlField, false),
    Field("scopes_supported", ArrayField, false),
    Field("response_modes_supported", ArrayField, false),
    Field("grant_types_supported", ArrayField, false),
    Field("claims_supported", ArrayField, false),
    Field("token_endpoint_auth_methods_supported", ArrayField, false),
    Field("check_session_iframe", UrlField, false),
    Field("end_session_endpoint", UrlField, false),
    Field("code_challenge_methods_supported", ArrayField, false),
    Field("device_authorization_endpoint", UrlField, false),
    Field("revocation_endpoint", UrlField, false),
    Field("revocation_endpoint_auth_methods_supported", ArrayField, false)
  ]

  function OptionalUrl(u: Option<Url>): FieldValue {
    if u.Some? then UrlValue(u.value) else Absent
  }

  function OptionalItems(items: Option<seq<string>>): FieldValue {
    if items.Some? then ArrayValue(items.value) else Absent
  }

  /** The parsed fields in the order of `Fields`, each as a converted value. */
  function Values(pm: ProviderMetadata): (vs: seq<FieldValue>)
    ensures |vs| == |Fields|
  {
    [UrlValue(pm.issuer), UrlValue(pm.authorizationEndpoint), UrlValue(pm.tokenEndpoint),
     UrlValue(pm.jwksUri), ArrayValue(pm.responseTypesSupported),
     ArrayValue(pm.subjectTypesSupported), ArrayValue(pm.idTokenSigningAlgValuesSupported),
     OptionalUrl(pm.userinfoEndpoint), OptionalUrl(pm.registrationEndpoint),
     OptionalItems(pm.scopesSupported), OptionalItems(pm.responseModesSupported),
     OptionalItems(pm.grantTypesSupported), OptionalItems(pm.claimsSupported),
     OptionalItems(pm.tokenEndpointAuthMethodsSupported), OptionalUrl(pm.checkSessionIframe),
     OptionalUrl(pm.endSessionEndpoint), OptionalItems(pm.codeChallengeMethodsSupported),
     OptionalUrl(pm.deviceAuthorizationEndpoint), OptionalUrl(pm.revocationEndpoint),
     OptionalItems(pm.revocationEndpointAuthMethodsSupported)]
  }

  /** The field table agrees with the key sets: the mandatory entries are the
      seven mandatory keys, the optional ones the thirteen optional keys, each
      with the conversion its key calls for. */
  lemma FieldTableMatchesKeys()
    ensures forall i :: 0 <= i < |Fields| ==>
              (Fields[i].mandatory <==> i < 7)
              && (Fields[i].kind == UrlField <==> Fields[i].key in MandatoryUrlKeys + OptionalUrlKeys)
              && (Fields[i].mandatory ==> Fields[i].key in MandatoryKeys)
              && (!Fields[i].mandatory ==> Fields[i].key in OptionalKeys)
  {
  }

  /** The array entries of the field table are exactly those whose keys are
      declared as arrays. */
  lemma ArrayEntriesMatchKeys()
    ensures forall i :: 0 <= i < |Fields| ==>
              (Fields[i].kind == ArrayField <==> Fields[i].key in MandatoryArrayKeys + OptionalArrayKeys)
  {
  }

  /** Every mandatory key has an entry among the first seven. */
  lemma MandatoryKeysInTable()
    ensures forall k :: k in MandatoryKeys ==> exists i :: 0 <= i < 7 && Fields[i].key == k
  {
    MandatoryUrlKeysInTable();
    MandatoryArrayKeysInTable();
  }

  lemma MandatoryUrlKeysInTable()
    ensures forall k :: k in MandatoryUrlKeys ==> exists i :: 0 <= i < 4 && Fields[i].key == k
  {
    forall k | k in MandatoryUrlKeys
      ensures exists i :: 0 <= i < 4 && Fields[i].key == k
    {
      if k == "issuer" {
        assert Fields[0].key == k;
      } else if k == "authorization_endpoint" {
        assert Fields[1].key == k;
      } else if k == "token_endpoint" {
        assert Fields[2].key == k;
      } else {
        assert Fields[3].key == k;
      }
    }
  }

  lemma MandatoryArrayKeysInTable()
    ensures forall k :: k in MandatoryArrayKeys ==> exists i :: 4 <= i < 7 && Fields[i].key == k
  {
    forall k | k in MandatoryArrayKeys
      ensures exists i :: 4 <= i < 7 && Fields[i].key == k
    {
      if k == "response_types_supported" {
        assert Fields[4].key == k;
      } else if k == "subject_types_supported" {
        assert Fields[5].key == k;
      } else {
        assert Fields[6].key == k;
      }
    }
  }

  /** Every optional key has an entry among the last thirteen. The proof
      names the entry of each key in its own branch: one case per key keeps
      each step small for the solver. */
  lemma OptionalKeysInTable()
    ensures forall k :: k in OptionalKeys ==> exists i :: 7 <= i < |Fields| && Fields[i].key == k
  {
    forall k | k in OptionalKeys
      ensures exists i :: 7 <= i < |Fields| && Fields[i].key == k
    {
      if k == "userinfo_endpoint" {
        assert Fields[7].key == k;
      } else if k == "registration_endpoint" {
        assert Fields[8].key == k;
      } else if k == "scopes_supported" {
        assert Fields[9].key == k;
      } else if k == "response_modes_supported" {
        assert Fields[10].key == k;
      } else if k == "grant_types_supported" {
        assert Fields[11].key == k;
      } else if k == "claims_supported" {
        assert Fields[12].key == k;
      } else if k == "token_endpoint_auth_methods_supported" {
        assert Fields[13].key == k;
      } else if k == "check_session_iframe" {
        assert Fields[14].key == k;
      } else if k == "end_session_endpoint" {
        assert Fields[15].key == k;
      } else if k == "code_challenge_methods_supported" {
        assert Fields[16].key == k;
      } else if k == "device_authorization_endpoint" {
        assert Fields[17].key == k;
      } else if k == "revocation_endpoint" {
        assert Fields[18].key == k;
      } else if k == "revocation_endpoint_auth_methods_supported" {
        assert Fields[19].key == k;
      }
    }
  }

  /** The raw type declares every mandatory key, URL keys as strings and array
      keys as string arrays; every optional parsed key is declared with the
      type its parsed field is read from. */
  lemma DeclaredTypesOfParsedKeys()
    ensures forall k :: k in MandatoryUrlKeys + OptionalUrlKeys ==> DeclaredAs(k, StringType)
    ensures forall k :: k in MandatoryArrayKeys + OptionalArrayKeys ==> DeclaredAs(k, StringArrayType)
  {
  }
}

=== FILE: options.dfy ===
/**
 The options a caller may pass to both discovery functions. Every option is
 optional; an absent option behaves like one that is switched off.
 */
module Options {
  import opened Outcomes

  /** An `AbortSignal` as the discovery code observes it when it is called:
      whether it has already fired, and the reason it carries if so. */
  datatype Signal = Signal(aborted: bool, reason: string)

  /** The caller's options object; `None` in a field is a property left out. */
  datatype DiscoveryOptions = DiscoveryOptions(
    signal: Option<Signal>,
    setDefaults: Option<bool>,
    validateIssuerOriginOnly: Option<bool>)

  /** An options object with every property left out. */
  const NoOptions: DiscoveryOptions := DiscoveryOptions(None, None, None)

  /** The keys that `setDefaults` is documented to fill in when the provider's
      document leaves them out. */
  const DocumentedDefaultKeys: set<string> := {
    "response_modes_supported",
    "grant_types_supported",
    "token_endpoint_auth_methods_supported",
    "claim_types_supported",
    "claims_parameter_supported",
    "request_parameter_supported",
    "request_uri_parameter_supported",
    "require_request_uri_registration"
  }

  /** JavaScript truthiness of an optional boolean property. */
  predicate IsSet(flag: Option<bool>) {
    flag == Some(true)
  }

  /** `options?.signal`: the signal, if options and a signal were both given. */
  function SignalOf(options: Option<DiscoveryOptions>): Option<Signal> {
    if options.Some? then options.value.signal else None
  }

  /** `options?.setDefaults` is truthy. */
  predicate SetDefaultsRequested(options: Option<DiscoveryOptions>) {
    options.Some? && IsSet(options.value.setDefaults)
  }

  /** `options?.validateIssuerOriginOnly` is truthy. */
  predicate OriginOnlyRequested(options: Option<DiscoveryOptions>) {
    options.Some? && IsSet(options.value.validateIssuerOriginOnly)
  }

  /** True when the options carry a signal that has already fired. */
  predicate AlreadyAborted(options: Option<DiscoveryOptions>) {
    SignalOf(options).Some? && SignalOf(options).value.aborted
  }
}

=== FILE: outcomes.dfy ===
/**
 Failure-compatible wrappers shared by the whole discovery pipeline, and the
 error taxonomy of raw retrieval and metadata parsing.
 */
module Outcomes {

  /** A value that may be absent: a missing property, an unparseable URL. */
  datatype Option<+T> = None | Some(value: T)

  /** Every way a discovery call can fail. The TypeScript code throws these as
      exceptions; here each kind is a constructor so callers can branch on it. */
  datatype Error =
    /** `new URL(issuer)` rejected the caller's issuer string. */
    | InvalidIssuerUrl(text: string)
    /** The abort signal had already fired; carries its reason. */
    | Aborted(reason: string)
    /** `fetch` itself rejected (network failure, in-flight abort, ...). */
    | TransportFailure(reason: string)
    /** The metadata endpoint answered with a status other than 200. */
    | BadStatus(status: int)
    /** The body was not JSON text at all. */
    | MalformedJson
    /** The body was JSON but not a (non-array) object. */
    | NotAnObject
    /** Exact issuer validation failed. */
    | IssuerMismatch
    /** Origin-only issuer validation failed. */
    | IssuerOriginMismatch
    /** `new URL(...)` rejected the value of a metadata property. */
    | InvalidUrl(key: string, text: string)
    /** `new URL(...)` could not turn the value of a metadata property into
        text: `String(v)` threw on it. */
    | NotConvertible(key: string)
    /** A string-array property was not an array. */
    | NotStringArray(key: string)
    /** A string-array property held a non-string element. */
    | NonStringElement(key: string)

  /** Either a value or the error that ended the operation; usable with `:-`. */
  datatype Result<+T> = Ok(value: T) | Err(error: Error) {

    predicate IsFailure() {
      Err?
    }

    function PropagateFailure<U>(): Result<U>
      requires Err?
    {
      Err(error)
    }

    function Extract(): T
      requires Ok?
    {
      value
    }
  }
}

=== FILE: parsed.dfy ===
/**
 Parsing of a retrieved provider document into `ProviderMetadata`: the issuer
 in the document is checked against the issuer the caller asked for (section
 4.3 of OpenID Connect Discovery 1.0, or, on request, only its origin), the
 seven mandatory properties are converted, and each of the thirteen optional
 ones is converted exactly when its key is present.
 */
module Parsed {
  import opened Outcomes
  import opened Json
  import opened Urls
  import opened Options
  import opened Metadata
  import opened Raw

  /** `ensureStringArray(property, key)`: the property must be an array and
      every element a string; the array is then returned as it is. The two
      failures are told apart and name the key. */
  function EnsureStringArray(property: Option<JVal>, key: string): (r: Result<seq<string>>)
    ensures r.Ok? <==> property.Some? && IsStringArray(property.value)
    ensures r.Ok? ==> property.value == StringArray(r.value)
    ensures (property.None? || !property.value.JArr?) ==> r == Err(NotStringArray(key))
    ensures (property.Some? && property.value.JArr? && !IsStringArray(property.value))
            ==> r == Err(NonStringElement(key))
  {
    if property.None? || !IsArray(property.value) then Err(NotStringArray(key))
    else
      match AsStrings(property.value.arr)
      case None => Err(NonStringElement(key))
      case Some(items) =>
        assert property.value == StringArray(items);
        Ok(items)
  }

  /** `new URL(doc[key])`: the property's JavaScript text parsed as a URL. A
      missing property is the text "undefined", which never parses; a value
      `String(v)` throws on fails before any parsing. */
  function UrlProperty(doc: RawDoc, key: string): (r: Result<Url>)
    ensures r.Ok? <==> PropertyText(Get(doc, key)).Some? && ParseUrl(PropertyText(Get(doc, key)).value).Some?
    ensures r.Ok? ==> ParseUrl(PropertyText(Get(doc, key)).value) == Some(r.value)
    ensures PropertyText(Get(doc, key)).None? ==> r == Err(NotConvertible(key))
    ensures PropertyText(Get(doc, key)).Some? && r.Err? ==>
              r.error == InvalidUrl(key, PropertyText(Get(doc, key)).value)
  {
    match PropertyText(Get(doc, key))
    case None => Err(NotConvertible(key))
    case Some(text) =>
      match ParseUrl(text)
      case None => Err(InvalidUrl(key, text))
      case Some(u) => Ok(u)
  }

  /** A mandatory string-array property. */
  function ArrayProperty(doc: RawDoc, key: string): Result<seq<string>> {
    EnsureStringArray(Get(doc, key), key)
  }

  /** `new URL(v)` for a present JSON value: its JavaScript text parsed, or
      None where either step throws. */
  function NewUrl(v: JVal): Option<Url> {
    match ToJsString(v)
    case None => None
    case Some(text) => ParseUrl(text)
  }

  /** A JSON value whose JavaScript text parses as a URL. */
  predicate IsUrlText(v: JVal) {
    NewUrl(v).Some?
  }

  /** A raw value that converts under `kind`. */
  predicate HasKind(v: JVal, kind: FieldKind) {
    match kind
    case UrlField => IsUrlText(v)
    case ArrayField => IsStringArray(v)
  }

  /** The property of `f` is acceptable: present if mandatory, and of its kind
      if present. An optional property that is present but null or of the
      wrong kind is not acceptable. */
  predicate FieldValid(doc: RawDoc, f: Field) {
    (f.mandatory ==> f.key in doc) && (f.key in doc ==> HasKind(doc[f.key], f.kind))
  }

  /** `fv` is what the property of `f` converts to: nothing for an absent key,
      the URL its text parses to, or the strings the array holds. */
  predicate Converts(doc: RawDoc, f: Field, fv: FieldValue) {
    && (f.key !in doc ==> fv == Absent)
    && (f.key in doc && f.kind == UrlField ==>
          fv.UrlValue? && NewUrl(doc[f.key]) == Some(fv.url))
    && (f.key in doc && f.kind == ArrayField ==>
          fv.ArrayValue? && doc[f.key] == StringArray(fv.items))
  }

  /** Every field of `pm` holds what the property of its table entry converts
      to. */
  predicate ConvertsAll(doc: RawDoc, pm: ProviderMetadata) {
    forall i {:trigger Converts(doc, Fields[i], Values(pm)[i])} :: 0 <= i < |Fields| ==> Converts(doc, Fields[i], Values(pm)[i])
  }

  /** `fv` is of the shape `f` calls for: a URL or an array as its kind says,
      or nothing for an optional property only. */
  predicate Shaped(f: Field, fv: FieldValue) {
    && (f.mandatory ==> !fv.Absent?)
    && (f.kind == UrlField ==> !fv.ArrayValue?)
    && (f.kind == ArrayField ==> !fv.UrlValue?)
  }

  /** A missing URL property is the text "undefined", which never parses. */
  lemma UrlPropertyOk(doc: RawDoc, key: string)
    ensures UrlProperty(doc, key).Ok? <==> key in doc && IsUrlText(doc[key])
  {
    if key !in doc {
      MissingPropertyTextHasNoColon();
      NoColonIsNotUrl(PropertyText(None).value);
    }
  }

  /** One property converted: an optional key that is absent is skipped, and
      every other one is converted, mandatory or not, so that a present but
      unusable optional value fails rather than being skipped. */
  function ConvertField(doc: RawDoc, f: Field): (r: Result<FieldValue>)
    ensures r.Ok? <==> FieldValid(doc, f)
    ensures r.Ok? ==> Converts(doc, f, r.value) && Shaped(f, r.value)
    ensures r.Err? ==> (r.error.InvalidUrl? || r.error.NotConvertible?
                        || r.error.NotStringArray? || r.error.NonStringElement?)
                       && r.error.key == f.key
  {
    if !f.mandatory && f.key !in doc then Ok(Absent)
    else
      match f.kind
      case UrlField => ConvertUrlField(doc, f.key)
      case ArrayField => ConvertArrayField(doc, f.key)
  }

  /** A present or mandatory URL property converted with `new URL(...)`. */
  function ConvertUrlField(doc: RawDoc, key: string): (r: Result<FieldValue>)
    ensures r.Ok? <==> key in doc && IsUrlText(doc[key])
    ensures r.Ok? ==> r.value.UrlValue? && NewUrl(doc[key]) == Some(r.value.url)
    ensures r.Err? ==> (r.error.InvalidUrl? || r.error.NotConvertible?) && r.error.key == key
  {
    UrlPropertyOk(doc, key);
    var u :- UrlProperty(doc, key);
    Ok(UrlValue(u))
  }

  /** A present or mandatory string-array property converted with
      `ensureStringArray`. */
  function ConvertArrayField(doc: RawDoc, key: string): (r: Result<FieldValue>)
    ensures r.Ok? <==> key in doc && IsStringArray(doc[key])
    ensures r.Ok? ==> r.value.ArrayValue? && doc[key] == StringArray(r.value.items)
    ensures r.Err? ==> (r.error.NotStringArray? || r.error.NonStringElement?) && r.error.key == key
  {
    var items :- ArrayProperty(doc, key);
    Ok(ArrayValue(items))
  }

  /** Entry `i` is the first entry of `fields` that is not valid for `doc`. */
  predicate FirstInvalid(doc: RawDoc, fields: seq<Field>, i: int) {
    && 0 <= i < |fields|
    && !FieldValid(doc, fields[i])
    && forall j :: 0 <= j < i ==> FieldValid(doc, fields[j])
  }

  /** The properties of `fields` converted one after the other; the first
      failure ends the conversion, and its error (naming its key) is the
      result. */
  function ConvertFields(doc: RawDoc, fields: seq<Field>): (r: Result<seq<FieldValue>>)
    ensures r.Ok? <==> forall i :: 0 <= i < |fields| ==> FieldValid(doc, fields[i])
    ensures r.Ok? ==> |r.value| == |fields|
    ensures r.Ok? ==> forall i :: 0 <= i < |fields| ==> Converts(doc, fields[i], r.value[i])
    ensures r.Ok? ==> forall i :: 0 <= i < |fields| ==> Shaped(fields[i], r.value[i])
    ensures forall i :: FirstInvalid(doc, fields, i) ==> r == Err(ConvertField(doc, fields[i]).error)
    decreases |fields|
  {
    if fields == [] then Ok([])
    else
      match ConvertField(doc, fields[0])
      case Err(e) => assert FirstInvalid(doc, fields, 0); Err(e)
      case Ok(v) =>
        FirstInvalidInTail(doc, fields);
        match ConvertFields(doc, fields[1..])
        case Err(e) => Err(e)
        case Ok(rest) => Ok([v] + rest)
  }

  /** Past a valid first entry, the first invalid entry is the tail's. */
  lemma FirstInvalidInTail(doc: RawDoc, fields: seq<Field>)
    requires fields != [] && FieldValid(doc, fields[0])
    ensures forall i :: 1 <= i < |fields| ==> fields[i] == fields[1..][i - 1]
    ensures forall i :: FirstInvalid(doc, fields, i) ==> FirstInvalid(doc, fields[1..], i - 1)
  {
  }

  /** The parsed metadata, built from the converted properties and the raw
      document itself. */
  function ConvertMetadata(doc: RawDoc): (r: Result<ProviderMetadata>)
    ensures r.Ok? <==> forall i :: 0 <= i < |Fields| ==> FieldValid(doc, Fields[i])
    ensures r.Ok? ==> r.value.raw == doc
    ensures r.Ok? ==> ConvertsAll(doc, r.value)
    ensures forall i :: FirstInvalid(doc, Fields, i) ==> r == Err(ConvertField(doc, Fields[i]).error)
  {
    var vs :- ConvertFields(doc, Fields);
    ShapedInPlace(vs);
    BuildPlacesValues(doc, vs);
    Ok(Build(doc, vs))
  }

  /** The twenty values are of the shapes the field table calls for, position
      by position. Spelled out index by index so that `Build` can select the
      fields without the solver unfolding the table. */
  predicate InPlace(vs: seq<FieldValue>)
    requires |vs| == 20
  {
    && vs[0].UrlValue?
    && vs[1].UrlValue?
    && vs[2].UrlValue?
    && vs[3].UrlValue?
    && vs[4].ArrayValue?
    && vs[5].ArrayValue?
    && vs[6].ArrayValue?
    && !vs[7].ArrayValue?
    && !vs[8].ArrayValue?
    && !vs[9].UrlValue?
    && !vs[10].UrlValue?
    && !vs[11].UrlValue?
    && !vs[12].UrlValue?
    && !vs[13].UrlValue?
    && !vs[14].ArrayValue?
    && !vs[15].ArrayValue?
    && !vs[16].UrlValue?
    && !vs[17].ArrayValue?
    && !vs[18].ArrayValue?
    && !vs[19].UrlValue?
  }

  /** Values shaped as the field table says are in place. */
  lemma ShapedInPlace(vs: seq<FieldValue>)
    requires |vs| == |Fields|
    requires forall i :: 0 <= i < |Fields| ==> Shaped(Fields[i], vs[i])
    ensures InPlace(vs)
  {
    assert Shaped(Fields[0], vs[0]) && Shaped(Fields[1], vs[1]) && Shaped(Fields[2], vs[2]) && Shaped(Fields[3], vs[3]);
    assert Shaped(Fields[4], vs[4]) && Shaped(Fields[5], vs[5]) && Shaped(Fields[6], vs[6]) && Shaped(Fields[7], vs[7]);
    assert Shaped(Fields[8], vs[8]) && Shaped(Fields[9], vs[9]) && Shaped(Fields[10], vs[10]) && Shaped(Fields[11], vs[11]);
    assert Shaped(Fields[12], vs[12]) && Shaped(Fields[13], vs[13]) && Shaped(Fields[14], vs[14]) && Shaped(Fields[15], vs[15]);
    assert Shaped(Fields[16], vs[16]) && Shaped(Fields[17], vs[17]) && Shaped(Fields[18], vs[18]) && Shaped(Fields[19], vs[19]);
  }

  /** Places the twenty converted values in their fields. */
  function Build(doc: RawDoc, vs: seq<FieldValue>): (pm: ProviderMetadata)
    requires |vs| == 20 && InPlace(vs)
    ensures pm.raw == doc
  {
    ProviderMetadata(
      vs[0].url, vs[1].url, vs[2].url, vs[3].url,
      vs[4].items, vs[5].items, vs[6].items,
      UrlOf(vs[7]), UrlOf(vs[8]), ItemsOf(vs[9]), ItemsOf(vs[10]), ItemsOf(vs[11]),
      ItemsOf(vs[12]), ItemsOf(vs[13]), UrlOf(vs[14]), UrlOf(vs[15]), ItemsOf(vs[16]),
      UrlOf(vs[17]), UrlOf(vs[18]), ItemsOf(vs[19]),
      doc)
  }

  /** Building and then listing the fields gives the values back. */
  lemma BuildPlacesValues(doc: RawDoc, vs: seq<FieldValue>)
    requires |vs| == 20 && InPlace(vs)
    ensures Values(Build(doc, vs)) == vs
  {
    var ws := Values(Build(doc, vs));
    BuildPlacesMandatory(doc, vs);
    BuildPlacesOptionalUrls(doc, vs);
    BuildPlacesOptionalArrays(doc, vs);
    SameTwenty(ws, vs);
  }

  lemma BuildPlacesMandatory(doc: RawDoc, vs: seq<FieldValue>)
    requires |vs| == 20 && InPlace(vs)
    ensures forall i :: 0 <= i < 7 ==> Values(Build(doc, vs))[i] == vs[i]
  {
    var ws := Values(Build(doc, vs));
    assert ws[0] == vs[0] && ws[1] == vs[1] && ws[2] == vs[2] && ws[3] == vs[3];
    assert ws[4] == vs[4] && ws[5] == vs[5] && ws[6] == vs[6];
  }

  lemma BuildPlacesOptionalUrls(doc: RawDoc, vs: seq<FieldValue>)
    requires |vs| == 20 && InPlace(vs)
    ensures Values(Build(doc, vs))[7] == vs[7] && Values(Build(doc, vs))[8] == vs[8]
    ensures Values(Build(doc, vs))[14] == vs[14] && Values(Build(doc, vs))[15] == vs[15]
    ensures Values(Build(doc, vs))[17] == vs[17] && Values(Build(doc, vs))[18] == vs[18]
  {
  }

  lemma BuildPlacesOptionalArrays(doc: RawDoc, vs: seq<FieldValue>)
    requires |vs| == 20 && InPlace(vs)
    ensures Values(Build(doc, vs))[9] == vs[9] && Values(Build(doc, vs))[10] == vs[10]
    ensures Values(Build(doc, vs))[11] == vs[11] && Values(Build(doc, vs))[12] == vs[12]
    ensures Values(Build(doc, vs))[13] == vs[13] && Values(Build(doc, vs))[16] == vs[16]
    ensures Values(Build(doc, vs))[19] == vs[19]
  {
  }

  /** Two sequences of twenty values that agree at each position are equal.
      A bridge from the per-field lemmas above to sequence equality, which
      the solver does not find on its own at this length. */
  lemma SameTwenty(a: seq<FieldValue>, b: seq<FieldValue>)
    requires |a| == 20 && |b| == 20
    requires a[0] == b[0] && a[1] == b[1] && a[2] == b[2] && a[3] == b[3] && a[4] == b[4]
    requires a[5] == b[5] && a[6] == b[6] && a[7] == b[7] && a[8] == b[8] && a[9] == b[9]
    requires a[10] == b[10] && a[11] == b[11] && a[12] == b[12] && a[13] == b[13] && a[14] == b[14]
    requires a[15] == b[15] && a[16] == b[16] && a[17] == b[17] && a[18] == b[18] && a[19] == b[19]
    ensures a == b
  {
    forall i | 0 <= i < 20
      ensures a[i] == b[i]
    {
      assert i in {0, 1, 2, 3, 4, 5, 6, 7, 8, 9, 10, 11, 12, 13, 14, 15, 16, 17, 18, 19};
    }
  }

  function UrlOf(fv: FieldValue): Option<Url> {
    if fv.UrlValue? then Some(fv.url) else None
  }

  function ItemsOf(fv: FieldValue): Option<seq<string>> {
    if fv.ArrayValue? then Some(fv.items) else None
  }

  /** The issuer check. By default the document's `issuer` must be exactly the
      text of the caller's issuer argument; in origin-only mode both must parse
      as URLs with equal origins. */
  function ValidateIssuer(doc: RawDoc, issuer: IssuerArg, originOnly: bool): (r: Result<()>)
    ensures !originOnly ==> (r.Ok? <==> Get(doc, "issuer") == Some(JStr(ArgText(issuer))))
    ensures !originOnly && r.Err? ==> r.error == IssuerMismatch
    ensures originOnly ==>
              (r.Ok? <==> UrlProperty(doc, "issuer").Ok? && ParseUrl(ArgText(issuer)).Some?
                          && Origin(UrlProperty(doc, "issuer").value) == Origin(ParseUrl(ArgText(issuer)).value))
    ensures originOnly && UrlProperty(doc, "issuer").Err? ==> r == Err(UrlProperty(doc, "issuer").error)
    ensures originOnly && UrlProperty(doc, "issuer").Ok? && ParseUrl(ArgText(issuer)).None? ==>
              r == Err(InvalidIssuerUrl(ArgText(issuer)))
    ensures originOnly && r.Err? && UrlProperty(doc, "issuer").Ok? && ParseUrl(ArgText(issuer)).Some? ==>
              r == Err(IssuerOriginMismatch)
  {
    if originOnly then
      var actual :- UrlProperty(doc, "issuer");
      var expectedText := ArgText(issuer);
      match ParseUrl(expectedText)
      case None => Err(InvalidIssuerUrl(expectedText))
      case Some(expected) =>
        if Origin(actual) != Origin(expected) then Err(IssuerOriginMismatch) else Ok(())
    else if Get(doc, "issuer") != Some(JStr(ArgText(issuer))) then Err(IssuerMismatch)
    else Ok(())
  }

  /** `retrieveProviderMetadata(issuer, options)`: raw retrieval, the issuer
      check, then conversion. */
  function RetrieveParsed(issuer: IssuerArg, options: Option<DiscoveryOptions>, fetch: Transport): (r: Result<ProviderMetadata>)
    ensures RetrieveRaw(issuer, options, fetch).Err? ==> r == Err(RetrieveRaw(issuer, options, fetch).error)
    ensures r.Ok? ==> RetrieveRaw(issuer, options, fetch) == Ok(r.value.raw)
    ensures r.Ok? ==> ValidateIssuer(r.value.raw, issuer, OriginOnlyRequested(options)).Ok?
    ensures var raw := RetrieveRaw(issuer, options, fetch);
            raw.Ok? && ValidateIssuer(raw.value, issuer, OriginOnlyRequested(options)).Err? ==>
              r == Err(ValidateIssuer(raw.value, issuer, OriginOnlyRequested(options)).error)
    ensures var raw := RetrieveRaw(issuer, options, fetch);
            raw.Ok? && ValidateIssuer(raw.value, issuer, OriginOnlyRequested(options)).Ok? ==>
              forall i :: FirstInvalid(raw.value, Fields, i) ==> r == Err(ConvertField(raw.value, Fields[i]).error)
  {
    var doc :- RetrieveRaw(issuer, options, fetch);
    var _ :- ValidateIssuer(doc, issuer, OriginOnlyRequested(options));
    ConvertMetadata(doc)
  }

  // ---------------------------------------------------------------------
  // What conversion accepts, stated by key
  // ---------------------------------------------------------------------

  /** The keys whose values become URL objects, mandatory or optional. */
  const UrlKeys: set<string> := MandatoryUrlKeys + OptionalUrlKeys

  /** The keys whose values must be arrays of strings, mandatory or optional. */
  const ArrayKeys: set<string> := MandatoryArrayKeys + OptionalArrayKeys

  /** A raw document conversion accepts: every mandatory key present, every
      present URL key's text a URL, every present array key an array of
      strings. Keys outside the twenty are not looked at. */
  predicate Acceptable(doc: RawDoc) {
    && MandatoryKeys <= doc.Keys
    && (forall k :: k in doc && k in UrlKeys ==> IsUrlText(doc[k]))
    && (forall k :: k in doc && k in ArrayKeys ==> IsStringArray(doc[k]))
  }

  /** Conversion succeeds exactly on the acceptable documents. */
  lemma ConvertMetadataAcceptable(doc: RawDoc)
    ensures ConvertMetadata(doc).Ok? <==> Acceptable(doc)
  {
    if ConvertMetadata(doc).Ok? {
      AllValidIsAcceptable(doc);
    } else {
      var i :| 0 <= i < |Fields| && !FieldValid(doc, Fields[i]);
      InvalidEntryUnacceptable(doc, i);
    }
  }

  /** A document with an entry of the table that does not convert is not
      acceptable. */
  lemma InvalidEntryUnacceptable(doc: RawDoc, i: nat)
    requires i < |Fields| && !FieldValid(doc, Fields[i])
    ensures !Acceptable(doc)
  {
    FieldTableMatchesKeys();
    ArrayEntriesMatchKeys();
    var f := Fields[i];
    if f.mandatory {
      assert f.key in MandatoryKeys;
    }
  }

  /** The table-wise condition implies the key-wise one. */
  lemma AllValidIsAcceptable(doc: RawDoc)
    requires forall i :: 0 <= i < |Fields| ==> FieldValid(doc, Fields[i])
    ensures Acceptable(doc)
  {
    MandatoryPresent(doc);
    UrlKeysAreUrls(doc);
    ArrayKeysAreArrays(doc);
  }

  lemma MandatoryPresent(doc: RawDoc)
    requires forall i :: 0 <= i < |Fields| ==> FieldValid(doc, Fields[i])
    ensures MandatoryKeys <= doc.Keys
  {
    FieldTableMatchesKeys();
    MandatoryKeysInTable();
    forall k | k in MandatoryKeys
      ensures k in doc
    {
      var i :| 0 <= i < 7 && Fields[i].key == k;
      assert FieldValid(doc, Fields[i]);
    }
  }

  /** The key of a URL entry or array entry of the table, and the entry. */
  lemma EntryOf(k: string) returns (i: nat)
    requires k in UrlKeys || k in ArrayKeys
    ensures i < |Fields| && Fields[i].key == k
  {
    MandatoryKeysInTable();
    OptionalKeysInTable();
    if k in MandatoryKeys {
      i :| 0 <= i < 7 && Fields[i].key == k;
    } else {
      i :| 7 <= i < |Fields| && Fields[i].key == k;
    }
  }

  lemma UrlKeysAreUrls(doc: RawDoc)
    requires forall i :: 0 <= i < |Fields| ==> FieldValid(doc, Fields[i])
    ensures forall k :: k in doc && k in UrlKeys ==> IsUrlText(doc[k])
  {
    forall k | k in doc && k in UrlKeys
      ensures IsUrlText(doc[k])
    {
      var i := EntryOf(k);
      FieldTableMatchesKeys();
      assert FieldValid(doc, Fields[i]);
    }
  }

  lemma ArrayKeysAreArrays(doc: RawDoc)
    requires forall i :: 0 <= i < |Fields| ==> FieldValid(doc, Fields[i])
    ensures forall k :: k in doc && k in ArrayKeys ==> IsStringArray(doc[k])
  {
    forall k | k in doc && k in ArrayKeys
      ensures IsStringArray(doc[k])
    {
      var i := EntryOf(k);
      ArrayEntriesMatchKeys();
      assert FieldValid(doc, Fields[i]);
    }
  }

  /** A document without some mandatory key is rejected. */
  lemma MissingMandatoryKeyRejected(doc: RawDoc, key: string)
    requires key in MandatoryKeys && key !in doc
    ensures ConvertMetadata(doc).Err?
  {
    ConvertMetadataAcceptable(doc);
  }

  /** A parsed key that is present with a value that is neither a string nor
      an array (null, a boolean, a number, an object) is rejected, whether the
      key is mandatory or optional: such a value's text has no ':' and is no
      URL, and it is no array. */
  lemma ScalarValueRejected(doc: RawDoc, key: string)
    requires key in MandatoryKeys + OptionalKeys && key in doc
    requires !doc[key].JStr? && !doc[key].JArr?
    ensures ConvertMetadata(doc).Err?
  {
    ConvertMetadataAcceptable(doc);
    NonStringTextHasNoColon(doc[key]);
    if ToJsString(doc[key]).Some? {
      NoColonIsNotUrl(ToJsString(doc[key]).value);
    }
    assert key in UrlKeys || key in ArrayKeys;
  }

  /** A present value that `String(v)` throws on, such as an array holding
      an object with its own "toString" member, is never parsed: the property
      fails with NotConvertible, and a document holding it under a URL key is
      rejected. */
  lemma ThrowingValueRejected(doc: RawDoc, key: string)
    requires key in doc && Throws(doc[key])
    ensures UrlProperty(doc, key) == Err(NotConvertible(key))
    ensures key in UrlKeys ==> ConvertMetadata(doc).Err?
  {
    ToJsStringThrows(doc[key]);
    ConvertMetadataAcceptable(doc);
  }

  // ---------------------------------------------------------------------
  // The parsed fields, by name
  // ---------------------------------------------------------------------

  /** `u` is what the text of the property `key` parses to. */
  predicate UrlFrom(doc: RawDoc, key: string, u: Url) {
    key in doc && NewUrl(doc[key]) == Some(u)
  }

  /** `items` are the strings of the array held by the property `key`. */
  predicate ItemsFrom(doc: RawDoc, key: string, items: seq<string>) {
    key in doc && doc[key] == StringArray(items)
  }

  /** An optional URL field is set exactly when its key is present, and then
      holds what the key's text parses to. */
  predicate OptionalUrlFrom(doc: RawDoc, key: string, u: Option<Url>) {
    (u.Some? <==> key in doc) && (u.Some? ==> UrlFrom(doc, key, u.value))
  }

  /** An optional array field is set exactly when its key is present, and then
      holds the strings of the key's array. */
  predicate OptionalItemsFrom(doc: RawDoc, key: string, items: Option<seq<string>>) {
    (items.Some? <==> key in doc) && (items.Some? ==> ItemsFrom(doc, key, items.value))
  }

  /** The mandatory `issuer` field holds what the text of "issuer" parses to. */
  lemma IssuerField(doc: RawDoc, pm: ProviderMetadata)
    requires ConvertsAll(doc, pm)
    ensures UrlFrom(doc, "issuer", pm.issuer)
  {
    MandatoryUrlAt(doc, pm, 0, "issuer", pm.issuer);
  }

  /** The mandatory `authorizationEndpoint` field holds what the text of "authorization_endpoint" parses to. */
  lemma AuthorizationEndpointField(doc: RawDoc, pm: ProviderMetadata)
    requires ConvertsAll(doc, pm)
    ensures UrlFrom(doc, "authorization_endpoint", pm.authorizationEndpoint)
  {
    MandatoryUrlAt(doc, pm, 1, "authorization_endpoint", pm.authorizationEndpoint);
  }

  /** The mandatory `tokenEndpoint` field holds what the text of "token_endpoint" parses to. */
  lemma TokenEndpointField(doc: RawDoc, pm: ProviderMetadata)
    requires ConvertsAll(doc, pm)
    ensures UrlFrom(doc, "token_endpoint", pm.tokenEndpoint)
  {
    MandatoryUrlAt(doc, pm, 2, "token_endpoint", pm.tokenEndpoint);
  }

  /** The mandatory `jwksUri` field holds what the text of "jwks_uri" parses to. */
  lemma JwksUriField(doc: RawDoc, pm: ProviderMetadata)
    requires ConvertsAll(doc, pm)
    ensures UrlFrom(doc, "jwks_uri", pm.jwksUri)
  {
    MandatoryUrlAt(doc, pm, 3, "jwks_uri", pm.jwksUri);
  }

  /** A mandatory URL entry of the table holds what its key's text parses to. */
  lemma MandatoryUrlAt(doc: RawDoc, pm: ProviderMetadata, i: nat, key: string, u: Url)
    requires ConvertsAll(doc, pm)
    requires i < |Fields| && Fields[i] == Field(key, UrlField, true) && Values(pm)[i] == UrlValue(u)
    ensures UrlFrom(doc, key, u)
  {
    assert Converts(doc, Fields[i], Values(pm)[i]);
  }

  /** Each mandatory array field holds the strings of its own key's array. */
  lemma MandatoryArrayFields(doc: RawDoc, pm: ProviderMetadata)
    requires ConvertsAll(doc, pm)
    ensures ItemsFrom(doc, "response_types_supported", pm.responseTypesSupported)
    ensures ItemsFrom(doc, "subject_types_supported", pm.subjectTypesSupported)
    ensures ItemsFrom(doc, "id_token_signing_alg_values_supported", pm.idTokenSigningAlgValuesSupported)
  {
    var ws := Values(pm);
    assert Converts(doc, Fields[4], ws[4]) && Converts(doc, Fields[5], ws[5]);
    assert Converts(doc, Fields[6], ws[6]);
  }

  /** Each optional URL field is set exactly when its key is present, and then
      holds what that key's text parses to. */
  lemma OptionalUrlFields(doc: RawDoc, pm: ProviderMetadata)
    requires ConvertsAll(doc, pm)
    ensures OptionalUrlFrom(doc, "userinfo_endpoint", pm.userinfoEndpoint)
    ensures OptionalUrlFrom(doc, "registration_endpoint", pm.registrationEndpoint)
    ensures OptionalUrlFrom(doc, "check_session_iframe", pm.checkSessionIframe)
    ensures OptionalUrlFrom(doc, "end_session_endpoint", pm.endSessionEndpoint)
    ensures OptionalUrlFrom(doc, "device_authorization_endpoint", pm.deviceAuthorizationEndpoint)
    ensures OptionalUrlFrom(doc, "revocation_endpoint", pm.revocationEndpoint)
  {
    var ws := Values(pm);
    assert Converts(doc, Fields[7], ws[7]) && Converts(doc, Fields[8], ws[8]);
    assert Converts(doc, Fields[14], ws[14]) && Converts(doc, Fields[15], ws[15]);
    assert Converts(doc, Fields[17], ws[17]) && Converts(doc, Fields[18], ws[18]);
  }

  /** Each optional array field is set exactly when its key is present, and
      then holds the strings of that key's array. */
  lemma OptionalArrayFields(doc: RawDoc, pm: ProviderMetadata)
    requires ConvertsAll(doc, pm)
    ensures OptionalItemsFrom(doc, "scopes_supported", pm.scopesSupported)
    ensures OptionalItemsFrom(doc, "response_modes_supported", pm.responseModesSupported)
    ensures OptionalItemsFrom(doc, "grant_types_supported", pm.grantTypesSupported)
    ensures OptionalItemsFrom(doc, "claims_supported", pm.claimsSupported)
    ensures OptionalItemsFrom(doc, "token_endpoint_auth_methods_supported", pm.tokenEndpointAuthMethodsSupported)
    ensures OptionalItemsFrom(doc, "code_challenge_methods_supported", pm.codeChallengeMethodsSupported)
    ensures OptionalItemsFrom(doc, "revocation_endpoint_auth_methods_supported", pm.revocationEndpointAuthMethodsSupported)
  {
    var ws := Values(pm);
    assert Converts(doc, Fields[9], ws[9]) && Converts(doc, Fields[10], ws[10]);
    assert Converts(doc, Fields[11], ws[11]) && Converts(doc, Fields[12], ws[12]);
    assert Converts(doc, Fields[13], ws[13]) && Converts(doc, Fields[16], ws[16]);
    assert Converts(doc, Fields[19], ws[19]);
  }

  // ---------------------------------------------------------------------
  // The issuer check
  // ---------------------------------------------------------------------

  /** An issuer that passes the exact check also passes the origin-only
      check, as long as the caller's issuer text parses. */
  lemma ExactImpliesOriginMatch(doc: RawDoc, issuer: IssuerArg)
    requires ValidateIssuer(doc, issuer, false).Ok?
    requires ParseUrl(ArgText(issuer)).Some?
    ensures ValidateIssuer(doc, issuer, true).Ok?
  {
    var text := ArgText(issuer);
    assert Get(doc, "issuer") == Some(JStr(text));
    assert PropertyText(Get(doc, "issuer")) == Some(text);
    assert UrlProperty(doc, "issuer") == Ok(ParseUrl(text).value);
  }

  /** A document whose issuer is the text `s`. */
  function IssuerDoc(s: string): (doc: RawDoc)
    ensures Get(doc, "issuer") == Some(JStr(s))
    ensures PropertyText(Get(doc, "issuer")) == Some(s)
  {
    map["issuer" := JStr(s)]
  }

  /** A host-only issuer such as "https://foo.bar" parses to a URL whose path
      is '/'. */
  lemma HostOnlyIssuerUrl(scheme: string, host: string)
    requires scheme in SpecialSchemes
    requires host != "" && NoUpper(host) && NoneOf(host, {':', '/', '?', '#', '@'})
    ensures UrlProperty(IssuerDoc(scheme + "://" + host), "issuer") == Ok(Url(scheme, host, "", "/", "", ""))
  {
    var text := scheme + "://" + host;
    var u := Url(scheme, host, "", "/", "", "");
    assert ParseUrl(text) == Some(u) by {
      HostOnlyIssuer(scheme, host);
    }
    assert PropertyText(Get(IssuerDoc(text), "issuer")) == Some(text);
  }

  /** The caller's string issuer repeats the document's host-only text
      exactly, so the exact check passes. */
  lemma HostOnlyTextIssuerMatches(scheme: string, host: string)
    ensures ValidateIssuer(IssuerDoc(scheme + "://" + host), IssuerText(scheme + "://" + host), false) == Ok(())
  {
  }

  /** With the URL object the exact check compares against its serialisation,
      which ends in '/', so the same host-only document fails. */
  lemma HostOnlyUrlIssuerMismatches(scheme: string, host: string)
    requires scheme in SpecialSchemes
    requires host != "" && NoUpper(host) && NoneOf(host, {':', '/', '?', '#', '@'})
    ensures ValidateIssuer(IssuerDoc(scheme + "://" + host), IssuerUrl(Url(scheme, host, "", "/", "", "")), false)
            == Err(IssuerMismatch)
  {
    var text := scheme + "://" + host;
    assert |Href(Url(scheme, host, "", "/", "", ""))| == |text| + 1;
  }

  /** The host-only document's issuer parses to the caller's URL object, so the
      origin-only check passes. */
  lemma HostOnlyUrlIssuerOriginMatches(scheme: string, host: string)
    requires scheme in SpecialSchemes
    requires host != "" && NoUpper(host) && NoneOf(host, {':', '/', '?', '#', '@'})
    ensures ValidateIssuer(IssuerDoc(scheme + "://" + host), IssuerUrl(Url(scheme, host, "", "/", "", "")), true) == Ok(())
  {
    var u := Url(scheme, host, "", "/", "", "");
    HostOnlyUrlReparses(scheme, host);
    HostOnlyIssuerUrl(scheme, host);
    OriginCheckPasses(IssuerDoc(scheme + "://" + host), IssuerUrl(u), u, u);
  }

  /** A multi-tenant provider answers the "common" issuer with a document
      whose issuer is a tenant template on the same host. The exact check
      rejects it whenever the paths differ; the origin-only check accepts it,
      since only scheme, host and port are compared. */
  lemma TenantIssuerOriginMatches(scheme: string, host: string, tenant: string, common: string)
    requires scheme in SpecialSchemes
    requires host != "" && NoUpper(host) && NoneOf(host, {':', '/', '?', '#', '@'})
    requires tenant != "" && tenant[0] == '/' && NoneOf(tenant, {'?', '#'})
    requires common != "" && common[0] == '/' && NoneOf(common, {'?', '#'})
    ensures tenant != common ==>
              ValidateIssuer(IssuerDoc(scheme + "://" + host + tenant), IssuerText(scheme + "://" + host + common), false)
              == Err(IssuerMismatch)
    ensures ValidateIssuer(IssuerDoc(scheme + "://" + host + tenant), IssuerText(scheme + "://" + host + common), true)
            == Ok(())
  {
    if tenant != common {
      TenantExactMismatch(scheme + "://" + host, tenant, common);
    }
    TenantOriginMatch(scheme, host, tenant, common);
  }

  lemma TenantExactMismatch(prefix: string, tenant: string, common: string)
    requires tenant != common
    ensures ValidateIssuer(IssuerDoc(prefix + tenant), IssuerText(prefix + common), false) == Err(IssuerMismatch)
  {
    assert (prefix + tenant)[|prefix|..] == tenant;
    assert (prefix + common)[|prefix|..] == common;
  }

  lemma TenantOriginMatch(scheme: string, host: string, tenant: string, common: string)
    requires scheme in SpecialSchemes
    requires host != "" && NoUpper(host) && NoneOf(host, {':', '/', '?', '#', '@'})
    requires tenant != "" && tenant[0] == '/' && NoneOf(tenant, {'?', '#'})
    requires common != "" && common[0] == '/' && NoneOf(common, {'?', '#'})
    ensures ValidateIssuer(IssuerDoc(scheme + "://" + host + tenant), IssuerText(scheme + "://" + host + common), true)
            == Ok(())
  {
    var t := scheme + "://" + host + tenant;
    var c := scheme + "://" + host + common;
    assert ParseUrl(t) == Some(Url(scheme, host, "", tenant, "", "")) by {
      ParseHostPath(scheme, host, tenant);
    }
    assert ParseUrl(c) == Some(Url(scheme, host, "", common, "", "")) by {
      ParseHostPath(scheme, host, common);
    }
    StringUrlProperty(IssuerDoc(t), "issuer", t, Url(scheme, host, "", tenant, "", ""));
    OriginCheckPasses(IssuerDoc(t), IssuerText(c), Url(scheme, host, "", tenant, "", ""), Url(scheme, host, "", common, "", ""));
  }

  /** A property holding URL text converts to what that text parses to. */
  lemma StringUrlProperty(doc: RawDoc, key: string, text: string, u: Url)
    requires Get(doc, key) == Some(JStr(text)) && ParseUrl(text) == Some(u)
    ensures UrlProperty(doc, key) == Ok(u)
  {
  }

  /** The origin-only check passes once the document's issuer and the caller's
      issuer parse to URLs of the same origin. */
  lemma OriginCheckPasses(doc: RawDoc, issuer: IssuerArg, actual: Url, expected: Url)
    requires UrlProperty(doc, "issuer") == Ok(actual)
    requires ParseUrl(ArgText(issuer)) == Some(expected)
    requires Origin(actual) == Origin(expected)
    ensures ValidateIssuer(doc, issuer, true) == Ok(())
  {
  }

  // ---------------------------------------------------------------------
  // The whole call
  // ---------------------------------------------------------------------

  /** `retrieveProviderMetadata` succeeds exactly when raw retrieval does, the
      issuer check passes on the raw document, and that document is
      acceptable. */
  lemma RetrieveParsedSucceeds(issuer: IssuerArg, options: Option<DiscoveryOptions>, fetch: Transport)
    ensures var raw := RetrieveRaw(issuer, options, fetch);
            RetrieveParsed(issuer, options, fetch).Ok? <==>
              raw.Ok? && ValidateIssuer(raw.value, issuer, OriginOnlyRequested(options)).Ok?
              && Acceptable(raw.value)
  {
    var raw := RetrieveRaw(issuer, options, fetch);
    if raw.Ok? {
      ConvertMetadataAcceptable(raw.value);
    }
  }

  /** A successful `retrieveProviderMetadata` is the conversion of the raw
      document, which it keeps as `raw`. */
  lemma RetrieveParsedResult(issuer: IssuerArg, options: Option<DiscoveryOptions>, fetch: Transport)
    ensures var raw := RetrieveRaw(issuer, options, fetch);
            RetrieveParsed(issuer, options, fetch).Ok? ==>
              RetrieveParsed(issuer, options, fetch) == ConvertMetadata(raw.value)
              && RetrieveParsed(issuer, options, fetch).value.raw == raw.value
  {
  }

  /** Leaving the options out is the same as passing an empty options object. */
  lemma AbsentOptionsParsed(issuer: IssuerArg, fetch: Transport)
    ensures RetrieveParsed(issuer, None, fetch) == RetrieveParsed(issuer, Some(NoOptions), fetch)
  {
    AbsentOptions(issuer, fetch);
  }
}

=== FILE: raw.dfy ===
/**
 Raw retrieval of an OpenID provider's metadata document (section 4 of OpenID
 Connect Discovery 1.0): build the discovery URL from the issuer, honour an
 already-fired abort signal, fetch, accept only status 200 with a JSON object
 body, and optionally fill in the section 3 defaults for eight keys.

 The network is a parameter: `fetch` maps the URL text requested to the
 response that comes back.
 */
module Raw {
  import opened Outcomes
  import opened Json
  import opened Urls
  import opened Options
  import opened Metadata

  /** The caller's issuer argument: a string or a `URL` object. */
  datatype IssuerArg = IssuerText(text: string) | IssuerUrl(url: Url)

  /** `issuer.toString()`: the string as given, or a URL object's href. */
  function ArgText(issuer: IssuerArg): string {
    match issuer
    case IssuerText(s) => s
    case IssuerUrl(u) => Href(u)
  }

  /** `issuer.toString()` parses to the URL the discovery request is built
      from: a string issuer is that text itself, and the href of a URL object
      (always well formed) parses back to the object. */
  lemma ArgTextDenotesIssuerUrl(issuer: IssuerArg)
    requires issuer.IssuerUrl? ==> WellFormed(issuer.url)
    ensures IssuerUrlOf(issuer).Ok? ==> ParseUrl(ArgText(issuer)) == Some(IssuerUrlOf(issuer).value)
    ensures IssuerUrlOf(issuer).Err? ==> ParseUrl(ArgText(issuer)) == None
  {
    if issuer.IssuerUrl? {
      ParseHref(issuer.url);
    }
  }

  /** What `fetch` yields: a rejection (network failure, in-flight abort), or a
      response with its status and its body decoded as JSON, None when the body
      is not JSON text. */
  datatype Response = Rejected(reason: string) | Reply(status: int, body: Option<JVal>)

  /** The network, as seen by one call: the response to a request for a URL. */
  type Transport = string -> Response

  /** The well-known path of section 4.1 of OpenID Connect Discovery 1.0. */
  const WellKnownPath: string := ".well-known/openid-configuration"

  /** The issuer as a URL: a string issuer is parsed (and may be rejected), a
      URL object is used as it is. */
  function IssuerUrlOf(issuer: IssuerArg): (r: Result<Url>)
    ensures issuer.IssuerUrl? ==> r == Ok(issuer.url)
    ensures issuer.IssuerText? ==> (r.Ok? <==> ParseUrl(issuer.text).Some?)
    ensures r.Ok? && issuer.IssuerText? ==> ParseUrl(issuer.text) == Some(r.value)
    ensures r.Err? ==> issuer.IssuerText? && r.error == InvalidIssuerUrl(issuer.text)
  {
    match issuer
    case IssuerUrl(u) => Ok(u)
    case IssuerText(s) =>
      match ParseUrl(s)
      case None => Err(InvalidIssuerUrl(s))
      case Some(u) => Ok(u)
  }

  /** What is appended to the issuer's href: the well-known path, preceded by a
      '/' unless the issuer's path already ends in one. */
  function DiscoverySuffix(u: Url): (r: string)
    ensures r == "/" + WellKnownPath || r == WellKnownPath
    ensures r == WellKnownPath <==> EndsWith(u.path, "/")
  {
    if EndsWith(u.path, "/") then WellKnownPath else "/" + WellKnownPath
  }

  /** The discovery URL: the issuer's href extended by the well-known path,
      with a '/' inserted between them exactly when the issuer's path does not
      end in one. When the issuer has a query or fragment the suffix follows
      that instead of the path, so if the path ends in '/' the '/' before the
      well-known path is missing unless the query or fragment itself ends in
      '/'. */
  function DiscoveryUrl(u: Url): (r: string)
    ensures HasPrefix(r, Href(u))
    ensures EndsWith(r, WellKnownPath)
    ensures EndsWith(u.path, "/") ==> |r| == |Href(u)| + |WellKnownPath|
    ensures !EndsWith(u.path, "/") ==> |r| == |Href(u)| + 1 + |WellKnownPath|
    ensures (u.query == "" && u.fragment == "") || !EndsWith(u.path, "/") ==> EndsWith(r, "/" + WellKnownPath)
  {
    var h := Href(u);
    var r := h + DiscoverySuffix(u);
    assert r[..|h|] == h;
    SuffixEndsWellKnown(u);
    SuffixAfterPath(u);
    r
  }

  /** Where text appended to a URL's href lands when the result is parsed
      again: in the fragment if there is one, else in the query if there is
      one, else in the path. */
  function AppendToUrl(u: Url, s: string): Url {
    if u.fragment != "" then u.(fragment := u.fragment + s)
    else if u.query != "" then u.(query := u.query + s)
    else u.(path := u.path + s)
  }

  /** `!body || typeof body !== "object" || Array.isArray(body)`: the test that
      turns a decoded body away. */
  predicate RejectedBody(v: JVal)
    ensures RejectedBody(v) <==> !v.JObj?
  {
    !Truthy(v) || TypeOf(v) != "object" || IsArray(v)
  }

  /** The status and shape gates applied to a response. Only status 200 with a
      JSON object body (not null, not an array) yields a document, which is the
      object's members unchanged. */
  function CheckResponse(response: Response): (r: Result<RawDoc>)
    ensures r.Ok? <==> response.Reply? && response.status == 200
                       && response.body.Some? && response.body.value.JObj?
    ensures r.Ok? ==> r.value == response.body.value.obj
    ensures response.Rejected? ==> r == Err(TransportFailure(response.reason))
    ensures response.Reply? && response.status != 200 ==> r == Err(BadStatus(response.status))
    ensures response == Reply(200, None) ==> r == Err(MalformedJson)
    ensures (response.Reply? && response.status == 200 && response.body.Some?
             && !response.body.value.JObj?) ==> r == Err(NotAnObject)
  {
    match response
    case Rejected(reason) => Err(TransportFailure(reason))
    case Reply(status, body) =>
      if status != 200 then Err(BadStatus(status))
      else if body.None? then Err(MalformedJson)
      else if RejectedBody(body.value) then Err(NotAnObject)
      else Ok(body.value.obj)
  }

  /** The section 3 defaults of OpenID Connect Discovery 1.0 for the eight keys
      that `setDefaults` fills in, in the order they are filled in. */
  const DefaultEntries: seq<(string, JVal)> := [
    ("response_modes_supported", StringArray(["query", "fragment"])),
    ("grant_types_supported", StringArray(["authorization_code", "implicit"])),
    ("token_endpoint_auth_methods_supported", StringArray(["client_secret_basic"])),
    ("claim_types_supported", StringArray(["normal"])),
    ("claims_parameter_supported", JBool(false)),
    ("request_parameter_supported", JBool(false)),
    ("request_uri_parameter_supported", JBool(true)),
    ("require_request_uri_registration", JBool(false))
  ]

  /** A list of entries as a map; an earlier entry wins over a later one for
      the same key. */
  function EntriesMap(entries: seq<(string, JVal)>): map<string, JVal>
    decreases |entries|
  {
    if entries == [] then map[] else EntriesMap(entries[1..])[entries[0].0 := entries[0].1]
  }

  /** The defaults, as a map from key to default value. */
  function Defaults(): map<string, JVal> {
    EntriesMap(DefaultEntries)
  }

  /** Stores `v` under `key` only when the key is absent; a present value, even
      `false` or an empty array, is left alone. */
  function SetIfAbsent(doc: RawDoc, key: string, v: JVal): (r: RawDoc)
    ensures r.Keys == doc.Keys + {key}
    ensures forall k :: k in doc ==> r[k] == doc[k]
    ensures key !in doc ==> r[key] == v
  {
    if key in doc then doc else doc[key := v]
  }

  /** `SetIfAbsent` for each entry in turn. */
  function SetEachIfAbsent(doc: RawDoc, entries: seq<(string, JVal)>): RawDoc
    decreases |entries|
  {
    if entries == [] then doc
    else SetEachIfAbsent(SetIfAbsent(doc, entries[0].0, entries[0].1), entries[1..])
  }

  /** The default injection: each documented key that is missing gets its
      default, one after the other. Nothing present is overwritten and no
      other key is added. */
  function ApplyDefaults(doc: RawDoc): (r: RawDoc)
    ensures r == Defaults() + doc
  {
    SetEachIfAbsentIsUnion(doc, DefaultEntries);
    SetEachIfAbsent(doc, DefaultEntries)
  }

  /** `retrieveRawProviderMetadata(issuer, options)`. The failures, in the
      order they are detected: an unparseable issuer string, an already-fired
      abort signal, a rejected fetch, a status other than 200, a body that is
      not JSON, a body that is not an object. */
  function RetrieveRaw(issuer: IssuerArg, options: Option<DiscoveryOptions>, fetch: Transport): (r: Result<RawDoc>)
    ensures IssuerUrlOf(issuer).Err? ==> r == Err(InvalidIssuerUrl(issuer.text))
    ensures AlreadyAborted(options) ==> r.Err? && (r.error.Aborted? || r.error.InvalidIssuerUrl?)
    ensures r.Ok? ==> IssuerUrlOf(issuer).Ok?
    ensures r.Ok? ==> CheckResponse(fetch(DiscoveryUrl(IssuerUrlOf(issuer).value))).Ok?
  {
    var url :- IssuerUrlOf(issuer);
    if AlreadyAborted(options) then Err(Aborted(SignalOf(options).value.reason))
    else
      var doc :- CheckResponse(fetch(DiscoveryUrl(url)));
      Ok(if SetDefaultsRequested(options) then ApplyDefaults(doc) else doc)
  }

  // ---------------------------------------------------------------------
  // The discovery URL
  // ---------------------------------------------------------------------

  /** The href with the suffix always ends in the well-known path. */
  lemma SuffixEndsWellKnown(u: Url)
    ensures EndsWith(Href(u) + DiscoverySuffix(u), WellKnownPath)
  {
    var r := Href(u) + DiscoverySuffix(u);
    if EndsWith(u.path, "/") {
      assert r[|r| - |WellKnownPath|..] == WellKnownPath;
    } else {
      assert r == Href(u) + "/" + WellKnownPath;
      assert r[|r| - |WellKnownPath|..] == WellKnownPath;
    }
  }

  /** Without query and fragment the href ends with the path, so the suffix
      always follows a '/'; a path without a final '/' gets one added
      wherever the suffix lands. */
  lemma SuffixAfterPath(u: Url)
    ensures (u.query == "" && u.fragment == "") || !EndsWith(u.path, "/") ==>
              EndsWith(Href(u) + DiscoverySuffix(u), "/" + WellKnownPath)
  {
    var h := Href(u);
    var w := "/" + WellKnownPath;
    if !EndsWith(u.path, "/") {
      assert (h + w)[|h + w| - |w|..] == w;
    } else if u.query == "" && u.fragment == "" {
      SlashSuffixAfterPath(u);
    }
  }

  /** A path ending in '/' ends the href of a URL without query and fragment,
      so that '/' precedes the well-known path. */
  lemma SlashSuffixAfterPath(u: Url)
    requires u.query == "" && u.fragment == "" && EndsWith(u.path, "/")
    ensures EndsWith(Href(u) + WellKnownPath, "/" + WellKnownPath)
  {
    var h := Href(u);
    var w := "/" + WellKnownPath;
    var r := h + WellKnownPath;
    assert h == u.scheme + "://" + Authority(u) + u.path;
    assert h[|h| - 1] == u.path[|u.path| - 1] == '/';
    assert r[|r| - |w|..] == h[|h| - 1..] + WellKnownPath;
    assert h[|h| - 1..] == "/";
  }

  /** Appending text to a URL's components appends it to the href. */
  lemma HrefOfAppend(u: Url, s: string)
    ensures Href(AppendToUrl(u, s)) == Href(u) + s
  {
    var v := AppendToUrl(u, s);
    assert Authority(v) == Authority(u);
    assert PathAndAfter(v) == PathAndAfter(u) + s;
  }

  /** Appending text free of '?' and '#' keeps a URL well formed, provided a
      bare empty path only ever receives text that starts with '/'. */
  lemma AppendWellFormed(u: Url, s: string)
    requires WellFormed(u)
    requires NoneOf(s, {'?', '#'})
    requires u.path == "" ==> s != "" && s[0] == '/'
    ensures WellFormed(AppendToUrl(u, s))
  {
    var v := AppendToUrl(u, s);
    if u.fragment == "" && u.query != "" {
      assert v.query[0] == '?';
      forall j | 0 <= j < |v.query|
        ensures v.query[j] != '#'
      {
        if j >= |u.query| {
          assert v.query[j] == s[j - |u.query|];
        }
      }
    } else if u.fragment == "" {
      forall j | 0 <= j < |v.path|
        ensures v.path[j] !in {'?', '#'}
      {
        if j >= |u.path| {
          assert v.path[j] == s[j - |u.path|];
        }
      }
      if u.path == "" {
        assert v.path[0] == s[0];
      } else {
        assert v.path[0] == u.path[0];
      }
    }
  }

  lemma SuffixChars(u: Url)
    ensures NoneOf(DiscoverySuffix(u), {'?', '#'})
    ensures DiscoverySuffix(u)[0] == '/' || EndsWith(u.path, "/")
  {
  }

  /** Parsing the discovery URL of a well-formed issuer gives back the issuer
      with the suffix appended to its last non-empty component; so the
      metadata is requested from the issuer's own origin. */
  lemma ParseDiscoveryUrl(u: Url)
    requires WellFormed(u)
    ensures ParseUrl(DiscoveryUrl(u)) == Some(AppendToUrl(u, DiscoverySuffix(u)))
    ensures Origin(AppendToUrl(u, DiscoverySuffix(u))) == Origin(u)
  {
    var s := DiscoverySuffix(u);
    SuffixChars(u);
    AppendWellFormed(u, s);
    HrefOfAppend(u, s);
    ParseHref(AppendToUrl(u, s));
  }

  /** For an issuer without query and fragment, the path that is requested
      ends in "/.well-known/openid-configuration". */
  lemma DiscoveryPath(u: Url)
    requires u.query == "" && u.fragment == ""
    ensures EndsWith(AppendToUrl(u, DiscoverySuffix(u)).path, "/" + WellKnownPath)
  {
    var v := AppendToUrl(u, DiscoverySuffix(u));
    var w := "/" + WellKnownPath;
    if EndsWith(u.path, "/") {
      assert v.path[|v.path| - |w|..] == u.path[|u.path| - 1..] + WellKnownPath;
    } else {
      assert v.path[|v.path| - |w|..] == w;
    }
  }

  /** The '/' before the well-known path is added only when the issuer's path
      lacks one: an issuer path without a doubled final '/' never yields a
      requested path with "//" before the well-known path. */
  lemma DiscoveryPathNoDoubledSlash(u: Url)
    requires u.query == "" && u.fragment == ""
    requires !EndsWith(u.path, "//")
    ensures !EndsWith(AppendToUrl(u, DiscoverySuffix(u)).path, "//" + WellKnownPath)
  {
    var v := AppendToUrl(u, DiscoverySuffix(u));
    var w := "//" + WellKnownPath;
    var k := |u.path|;
    if EndsWith(u.path, "/") {
      assert v.path == u.path + WellKnownPath;
      if k >= 2 {
        assert u.path[k - 2..] == [u.path[k - 2], '/'];
        assert v.path[|v.path| - |w|] == u.path[k - 2] != '/';
      }
    } else {
      assert v.path == u.path + "/" + WellKnownPath;
      if k >= 1 {
        assert u.path[k - 1..] == [u.path[k - 1]];
        assert v.path[|v.path| - |w|] == u.path[k - 1] != '/';
      }
    }
    assert |v.path| < |w| || v.path[|v.path| - |w|] != w[0];
  }

  /** Adding a trailing '/' to an issuer path that has none (no query, no
      fragment) leaves the discovery URL unchanged. */
  lemma TrailingSlashSameDiscoveryUrl(u: Url)
    requires u.query == "" && u.fragment == ""
    requires !EndsWith(u.path, "/")
    ensures DiscoveryUrl(u.(path := u.path + "/")) == DiscoveryUrl(u)
  {
    var v := u.(path := u.path + "/");
    assert v == AppendToUrl(u, "/");
    HrefOfAppend(u, "/");
    assert EndsWith(v.path, "/");
    assert Href(v) + WellKnownPath == Href(u) + ("/" + WellKnownPath);
  }

  /** For a special scheme, "scheme://host" and "scheme://host/" parse to the
      same URL, whose path is "/". */
  lemma HostOnlyIssuer(scheme: string, host: string)
    requires scheme in SpecialSchemes
    requires host != "" && NoUpper(host) && NoneOf(host, {':', '/', '?', '#', '@'})
    ensures ParseUrl(scheme + "://" + host) == Some(Url(scheme, host, "", "/", "", ""))
    ensures ParseUrl(scheme + "://" + host + "/") == Some(Url(scheme, host, "", "/", "", ""))
  {
    var u := Url(scheme, host, "", "/", "", "");
    assert IsSchemeText(scheme) && NoUpper(scheme);
    assert WellFormed(u);
    assert Href(u) == scheme + "://" + host + "/";
    ParseHref(u);
    var s := scheme + "://" + host;
    SchemeSplitsOff(scheme, host);
    assert host + "" == host;
    RestSplitsOff(host, "");
    SplitHostPort(host, "");
    SplitPathQueryFragment("", "", "");
    ParseOfSplits(s, scheme, host, "", host, "", "", "", "");
    LowerOfNoUpper(host);
  }

  /** The URL object of a host-only issuer serialises to text that parses
      back to it. */
  lemma HostOnlyUrlReparses(scheme: string, host: string)
    requires scheme in SpecialSchemes
    requires host != "" && NoUpper(host) && NoneOf(host, {':', '/', '?', '#', '@'})
    ensures ParseUrl(Href(Url(scheme, host, "", "/", "", ""))) == Some(Url(scheme, host, "", "/", "", ""))
  {
    var u := Url(scheme, host, "", "/", "", "");
    assert IsSchemeText(scheme) && NoUpper(scheme);
    assert WellFormed(u);
    ParseHref(u);
  }

  // ---------------------------------------------------------------------
  // Retrieval
  // ---------------------------------------------------------------------

  /** An already-fired signal ends the call before any request is made: the
      outcome does not depend on the network, and it is the signal's reason
      (or the rejection of an unparseable issuer string, which comes first). */
  lemma AbortedNeverFetches(issuer: IssuerArg, options: Option<DiscoveryOptions>, f1: Transport, f2: Transport)
    requires AlreadyAborted(options)
    ensures RetrieveRaw(issuer, options, f1) == RetrieveRaw(issuer, options, f2)
    ensures IssuerUrlOf(issuer).Ok? ==>
              RetrieveRaw(issuer, options, f1) == Err(Aborted(SignalOf(options).value.reason))
  {
  }

  /** The only request made is for the discovery URL: two networks that answer
      it alike give the same outcome. */
  lemma FetchesOnlyDiscoveryUrl(issuer: IssuerArg, options: Option<DiscoveryOptions>, f1: Transport, f2: Transport)
    requires IssuerUrlOf(issuer).Ok?
    requires f1(DiscoveryUrl(IssuerUrlOf(issuer).value)) == f2(DiscoveryUrl(IssuerUrlOf(issuer).value))
    ensures RetrieveRaw(issuer, options, f1) == RetrieveRaw(issuer, options, f2)
  {
  }

  /** The outcome of a call whose issuer parses and whose signal has not fired
      is the outcome of the gates on the response, plus the defaults if asked. */
  lemma RetrieveRawOutcome(issuer: IssuerArg, options: Option<DiscoveryOptions>, fetch: Transport)
    requires IssuerUrlOf(issuer).Ok? && !AlreadyAborted(options)
    ensures var response := fetch(DiscoveryUrl(IssuerUrlOf(issuer).value));
            && (CheckResponse(response).Err? ==> RetrieveRaw(issuer, options, fetch) == Err(CheckResponse(response).error))
            && (CheckResponse(response).Ok? && !SetDefaultsRequested(options) ==>
                  RetrieveRaw(issuer, options, fetch) == Ok(CheckResponse(response).value))
            && (CheckResponse(response).Ok? && SetDefaultsRequested(options) ==>
                  RetrieveRaw(issuer, options, fetch) == Ok(ApplyDefaults(CheckResponse(response).value)))
  {
  }

  /** Any status other than 200 fails with that status, whatever the body. */
  lemma StatusGate(issuer: IssuerArg, options: Option<DiscoveryOptions>, fetch: Transport, status: int, body: Option<JVal>)
    requires IssuerUrlOf(issuer).Ok? && !AlreadyAborted(options)
    requires fetch(DiscoveryUrl(IssuerUrlOf(issuer).value)) == Reply(status, body)
    requires status != 200
    ensures RetrieveRaw(issuer, options, fetch) == Err(BadStatus(status))
  {
  }

  /** A 200 body that is JSON but not an object (a number, null, an array, ...)
      is refused; JavaScript's truthiness, `typeof` and `Array.isArray` tests
      together accept exactly the objects. */
  lemma ShapeGate(v: JVal)
    ensures RejectedBody(v) <==> !v.JObj?
    ensures CheckResponse(Reply(200, Some(v))).Ok? <==> v.JObj?
  {
  }

  /** Without `setDefaults` the document is the body's object exactly. */
  lemma NoDefaultsPassesBodyThrough(issuer: IssuerArg, options: Option<DiscoveryOptions>, fetch: Transport, body: map<string, JVal>)
    requires IssuerUrlOf(issuer).Ok? && !AlreadyAborted(options) && !SetDefaultsRequested(options)
    requires fetch(DiscoveryUrl(IssuerUrlOf(issuer).value)) == Reply(200, Some(JObj(body)))
    ensures RetrieveRaw(issuer, options, fetch) == Ok(body)
  {
  }

  /** Leaving the options out behaves like passing an options object with
      every property left out: no defaults, no signal. */
  lemma AbsentOptions(issuer: IssuerArg, fetch: Transport)
    ensures RetrieveRaw(issuer, None, fetch) == RetrieveRaw(issuer, Some(NoOptions), fetch)
    ensures !SetDefaultsRequested(None) && !OriginOnlyRequested(None) && !AlreadyAborted(None)
  {
  }

  /** Setting each entry if absent is the map union with the entries on the
      losing side: present keys win. */
  lemma {:induction false} SetEachIfAbsentIsUnion(doc: RawDoc, entries: seq<(string, JVal)>)
    ensures SetEachIfAbsent(doc, entries) == EntriesMap(entries) + doc
    decreases |entries|
  {
    if entries != [] {
      var (key, v) := entries[0];
      var rest := entries[1..];
      var d := SetIfAbsent(doc, key, v);
      SetEachIfAbsentIsUnion(d, rest);
      assert EntriesMap(rest) + d == EntriesMap(entries) + doc;
    }
  }

  /** The defaults are exactly the documented keys with the values section 3
      gives them. */
  lemma DefaultsAsDocumented()
    ensures Defaults().Keys == DocumentedDefaultKeys
  {
    DefaultValuesAsDocumented();
  }

  /** Each default holds the value section 3 gives its key. */
  lemma DefaultValuesAsDocumented()
    ensures Defaults() == map[
      "response_modes_supported" := StringArray(["query", "fragment"]),
      "grant_types_supported" := StringArray(["authorization_code", "implicit"]),
      "token_endpoint_auth_methods_supported" := StringArray(["client_secret_basic"]),
      "claim_types_supported" := StringArray(["normal"]),
      "claims_parameter_supported" := JBool(false),
      "request_parameter_supported" := JBool(false),
      "request_uri_parameter_supported" := JBool(true),
      "require_request_uri_registration" := JBool(false)]
  {
  }

  /** The defaults only add: the result has the document's keys plus the
      documented ones, every present value is kept as it is, and every added
      key holds its section 3 default. */
  lemma ApplyDefaultsOnlyAdds(doc: RawDoc)
    ensures ApplyDefaults(doc).Keys == doc.Keys + DocumentedDefaultKeys
    ensures forall k :: k in doc ==> ApplyDefaults(doc)[k] == doc[k]
    ensures forall k :: k in ApplyDefaults(doc) && k !in doc ==> ApplyDefaults(doc)[k] == Defaults()[k]
  {
    DefaultsAsDocumented();
  }

  /** Applying the defaults twice is the same as applying them once. */
  lemma ApplyDefaultsIdempotent(doc: RawDoc)
    ensures ApplyDefaults(ApplyDefaults(doc)) == ApplyDefaults(doc)
  {
    UnionAbsorbs(Defaults(), doc);
  }

  /** Merging the same defaults under a map twice changes nothing the second
      time. */
  lemma UnionAbsorbs(defaults: map<string, JVal>, doc: RawDoc)
    ensures defaults + (defaults + doc) == defaults + doc
  {
  }

  /** Every value the defaults add has the type the raw document declares for
      its key: four string arrays and four booleans. */
  lemma DefaultsConform()
    ensures forall i :: 0 <= i < |DefaultEntries| ==>
              (DeclaredAs(DefaultEntries[i].0, StringArrayType) && Conforms(DefaultEntries[i].1, StringArrayType))
              || (DeclaredAs(DefaultEntries[i].0, BooleanType) && Conforms(DefaultEntries[i].1, BooleanType))
  {
  }

  /** A string issuer without query and fragment yields the same raw
      document with or without a final '/'. */
  lemma TrailingSlashStringIssuer(s: string, options: Option<DiscoveryOptions>, fetch: Transport)
    requires ParseUrl(s).Some?
    requires NoneOf(s, {'?', '#'}) && !EndsWith(s, "/")
    ensures RetrieveRaw(IssuerText(s), options, fetch) == RetrieveRaw(IssuerText(s + "/"), options, fetch)
  {
    ParseAppendSlash(s);
    var u := ParseUrl(s).value;
    if !EndsWith(u.path, "/") {
      TrailingSlashSameDiscoveryUrl(u);
    }
    SameDiscoveryUrlSameRaw(IssuerText(s), IssuerText(s + "/"), options, fetch);
  }

  /** Retrieval depends on the issuer only through its discovery URL. */
  lemma SameDiscoveryUrlSameRaw(a: IssuerArg, b: IssuerArg, options: Option<DiscoveryOptions>, fetch: Transport)
    requires IssuerUrlOf(a).Ok? && IssuerUrlOf(b).Ok?
    requires DiscoveryUrl(IssuerUrlOf(a).value) == DiscoveryUrl(IssuerUrlOf(b).value)
    ensures RetrieveRaw(a, options, fetch) == RetrieveRaw(b, options, fetch)
  {
  }

  /** Retrieval depends on the issuer argument only through the URL it
      denotes. */
  lemma SameIssuerUrlSameRaw(a: IssuerArg, b: IssuerArg, options: Option<DiscoveryOptions>, fetch: Transport)
    requires IssuerUrlOf(a) == IssuerUrlOf(b)
    ensures RetrieveRaw(a, options, fetch) == RetrieveRaw(b, options, fetch)
  {
  }

  /** A URL issuer with or without a trailing '/' on its path yields the same
      raw document. */
  lemma TrailingSlashUrlIssuer(u: Url, options: Option<DiscoveryOptions>, fetch: Transport)
    requires u.query == "" && u.fragment == ""
    requires !EndsWith(u.path, "/")
    ensures RetrieveRaw(IssuerUrl(u), options, fetch) == RetrieveRaw(IssuerUrl(u.(path := u.path + "/")), options, fetch)
  {
    TrailingSlashSameDiscoveryUrl(u);
    SameDiscoveryUrlSameRawUrl(u, u.(path := u.path + "/"), options, fetch);
  }

  /** Two URL issuers with the same discovery URL retrieve alike. */
  lemma SameDiscoveryUrlSameRawUrl(u: Url, v: Url, options: Option<DiscoveryOptions>, fetch: Transport)
    requires DiscoveryUrl(u) == DiscoveryUrl(v)
    ensures RetrieveRaw(IssuerUrl(u), options, fetch) == RetrieveRaw(IssuerUrl(v), options, fetch)
  {
    SameDiscoveryUrlSameRaw(IssuerUrl(u), IssuerUrl(v), options, fetch);
  }
}

=== FILE: urls.dfy ===
/**
 A simplified model of the WHATWG URL objects that the discovery code builds
 with `new URL(...)`: an absolute URL `scheme://host[:port]path[?query][#fragment]`
 is split into its components, the scheme (and, for special schemes, the host)
 is lower-cased, a special scheme's default port is dropped and its empty path
 becomes "/". `Href` serialises a URL back to text and `Origin` gives the
 serialised origin that `URL.origin` compares.
 */
module Urls {
  import opened Outcomes
  import Json

  /** A parsed URL. `query` keeps its leading '?' and `fragment` its leading '#'
      so that an empty-but-present query survives serialisation. */
  datatype Url = Url(
    scheme: string,
    host: string,
    port: string,
    path: string,
    query: string,
    fragment: string)

  /** Schemes with a tuple origin, a mandatory host and a non-empty path. */
  const SpecialSchemes: set<string> := {"ftp", "http", "https", "ws", "wss"}

  /** The port a special scheme uses when none is written; "" for other schemes. */
  function DefaultPort(scheme: string): string {
    if scheme == "ftp" then "21"
    else if scheme == "http" || scheme == "ws" then "80"
    else if scheme == "https" || scheme == "wss" then "443"
    else ""
  }

  predicate IsAlpha(c: char) {
    ('a' <= c <= 'z') || ('A' <= c <= 'Z')
  }

  predicate IsSchemeChar(c: char) {
    IsAlpha(c) || Json.IsDigit(c) || c == '+' || c == '-' || c == '.'
  }

  /** A scheme: a letter followed by letters, digits, '+', '-' or '.'. */
  predicate IsSchemeText(s: string) {
    |s| > 0 && IsAlpha(s[0]) && forall i :: 0 <= i < |s| ==> IsSchemeChar(s[i])
  }

  predicate AllDigits(s: string) {
    forall i :: 0 <= i < |s| ==> Json.IsDigit(s[i])
  }

  /** No character of `s` is one of `stops`. */
  predicate NoneOf(s: string, stops: set<char>) {
    forall i :: 0 <= i < |s| ==> s[i] !in stops
  }

  function LowerChar(c: char): char {
    if 'A' <= c <= 'Z' then (c as int + 32) as char else c
  }

  /** ASCII lower-casing. */
  function Lower(s: string): string {
    seq(|s|, i requires 0 <= i < |s| => LowerChar(s[i]))
  }

  predicate IsUpper(c: char) {
    'A' <= c <= 'Z'
  }

  /** `s` has no upper-case ASCII letter, so lower-casing leaves it alone. */
  predicate NoUpper(s: string) {
    forall i :: 0 <= i < |s| ==> !IsUpper(s[i])
  }

  predicate HasPrefix(s: string, p: string) {
    |p| <= |s| && s[..|p|] == p
  }

  predicate EndsWith(s: string, p: string) {
    |p| <= |s| && s[|s| - |p|..] == p
  }

  /** The index of the first character of `s` that is in `stops`, or |s|. */
  function FindFirst(s: string, stops: set<char>): (i: nat)
    ensures i <= |s|
    ensures forall j :: 0 <= j < i ==> s[j] !in stops
    ensures i < |s| ==> s[i] in stops
  {
    if s == [] then 0
    else if s[0] in stops then 0
    else 1 + FindFirst(s[1..], stops)
  }

  /** The components a well-formed URL has, as the parser produces them. */
  predicate WellFormed(u: Url) {
    var special := u.scheme in SpecialSchemes;
    && IsSchemeText(u.scheme) && NoUpper(u.scheme)
    && NoneOf(u.host, {':', '/', '?', '#', '@'})
    && (special ==> u.host != "" && NoUpper(u.host))
    && AllDigits(u.port) && (u.port == "" || u.port != DefaultPort(u.scheme))
    && NoneOf(u.path, {'?', '#'}) && (u.path == "" || u.path[0] == '/')
    && (special ==> u.path != "")
    && (u.query == "" || (u.query[0] == '?' && NoneOf(u.query, {'#'})))
    && (u.fragment == "" || u.fragment[0] == '#')
  }

  /** Splits what follows the authority into path, query and fragment. */
  function SplitTail(tail: string): (r: (string, string, string))
    requires tail == "" || tail[0] in {'/', '?', '#'}
    ensures r.0 + r.1 + r.2 == tail
    ensures NoneOf(r.0, {'?', '#'}) && (r.0 == "" || r.0[0] == '/')
    ensures r.1 == "" || (r.1[0] == '?' && NoneOf(r.1, {'#'}))
    ensures r.2 == "" || r.2[0] == '#'
  {
    var p := FindFirst(tail, {'?', '#'});
    var after := tail[p..];
    var q := FindFirst(after, {'#'});
    assert tail == tail[..p] + after[..q] + after[q..];
    (tail[..p], after[..q], after[q..])
  }

  /** Splits an authority at its first ':' into host and port text. */
  function SplitAuthority(authority: string): (r: (string, string))
    ensures NoneOf(r.0, {':'})
    ensures r.1 == "" || (|r.0| < |authority| && authority == r.0 + ":" + r.1)
    ensures r.1 == "" ==> authority == r.0 || authority == r.0 + ":"
  {
    var c := FindFirst(authority, {':'});
    if c < |authority| then
      assert authority == authority[..c] + ":" + authority[c + 1..];
      (authority[..c], authority[c + 1..])
    else (authority, "")
  }

  /** Splits `scheme://rest` at its first ':', or None when there is no ':',
      the scheme text is malformed or it is not followed by "//". */
  function SplitScheme(s: string): (r: Option<(string, string)>)
    ensures r.Some? ==> IsSchemeText(r.value.0)
  {
    var i := FindFirst(s, {':'});
    if i == |s| || !IsSchemeText(s[..i]) || !HasPrefix(s[i + 1..], "//") then None
    else Some((s[..i], s[i + 3..]))
  }

  /** Splits what follows "//" into the authority and the rest, at the first
      '/', '?' or '#'. */
  function SplitRest(rest: string): (r: (string, string))
    ensures NoneOf(r.0, {'/', '?', '#'})
    ensures r.1 == "" || r.1[0] in {'/', '?', '#'}
  {
    var a := FindFirst(rest, {'/', '?', '#'});
    (rest[..a], rest[a..])
  }

  /** `new URL(s)` for an absolute URL string, or None where it throws. */
  function ParseUrl(s: string): Option<Url> {
    match SplitScheme(s)
    case None => None
    case Some((schemeText, rest)) =>
      var (authority, tail) := SplitRest(rest);
      var (host, portText) := SplitAuthority(authority);
      if '@' in authority || !AllDigits(portText) || (Lower(schemeText) in SpecialSchemes && host == "") then None
      else
        HostHasNoDelimiters(authority);
        LowerHasNoUpper(schemeText);
        LowerKeepsScheme(schemeText);
        var (path, query, fragment) := SplitTail(tail);
        Some(Assemble(Lower(schemeText), host, portText, path, query, fragment))
  }

  /** Builds the URL from the pieces the parser has split off (the scheme
      already lower-cased), applying the remaining normalisations: lower-cased
      special host, default port dropped, empty special path replaced by "/". */
  function Assemble(scheme: string, host: string, portText: string,
                    path: string, query: string, fragment: string): (u: Url)
    requires IsSchemeText(scheme) && NoUpper(scheme)
    requires NoneOf(host, {':', '/', '?', '#', '@'})
    requires scheme in SpecialSchemes ==> host != ""
    requires AllDigits(portText)
    requires NoneOf(path, {'?', '#'}) && (path == "" || path[0] == '/')
    requires query == "" || (query[0] == '?' && NoneOf(query, {'#'}))
    requires fragment == "" || fragment[0] == '#'
  {
    var special := scheme in SpecialSchemes;
    Url(
      scheme,
      if special then Lower(host) else host,
      if portText == DefaultPort(scheme) then "" else portText,
      if special && path == "" then "/" else path,
      query,
      fragment)
  }

  /** What the parser assembles is well formed. */
  lemma AssembledIsWellFormed(scheme: string, host: string, portText: string,
                              path: string, query: string, fragment: string)
    requires IsSchemeText(scheme) && NoUpper(scheme)
    requires NoneOf(host, {':', '/', '?', '#', '@'})
    requires scheme in SpecialSchemes ==> host != ""
    requires AllDigits(portText)
    requires NoneOf(path, {'?', '#'}) && (path == "" || path[0] == '/')
    requires query == "" || (query[0] == '?' && NoneOf(query, {'#'}))
    requires fragment == "" || fragment[0] == '#'
    ensures WellFormed(Assemble(scheme, host, portText, path, query, fragment))
  {
    LowerHasNoUpper(host);
    LowerKeepsNonLetters(host, {':', '/', '?', '#', '@'});
  }

  /** Every URL the parser produces is well formed. */
  lemma ParsedIsWellFormed(s: string)
    requires ParseUrl(s).Some?
    ensures WellFormed(ParseUrl(s).value)
  {
    var (schemeText, rest) := SplitScheme(s).value;
    var (authority, tail) := SplitRest(rest);
    var (host, portText) := SplitAuthority(authority);
    HostHasNoDelimiters(authority);
    LowerHasNoUpper(schemeText);
    LowerKeepsScheme(schemeText);
    var (path, query, fragment) := SplitTail(tail);
    AssembledIsWellFormed(Lower(schemeText), host, portText, path, query, fragment);
  }

  /** The host split off an authority without '/', '?', '#' and '@' has none of
      the URL delimiters in it. */
  lemma HostHasNoDelimiters(authority: string)
    requires NoneOf(authority, {'/', '?', '#'})
    requires '@' !in authority
    ensures NoneOf(SplitAuthority(authority).0, {':', '/', '?', '#', '@'})
  {
    var host := SplitAuthority(authority).0;
    forall j | 0 <= j < |host|
      ensures host[j] !in {':', '/', '?', '#', '@'}
    {
      assert host[j] == authority[j];
    }
  }

  /** `URL.href`: the serialised URL. */
  function Href(u: Url): string {
    u.scheme + "://" + (Authority(u) + PathAndAfter(u))
  }

  /** Host and port, as written between "//" and the path. */
  function Authority(u: Url): string {
    u.host + PortSuffix(u.port)
  }

  /** Path, query and fragment, as written after the authority. */
  function PathAndAfter(u: Url): string {
    u.path + u.query + u.fragment
  }

  function PortSuffix(port: string): string {
    if port == "" then "" else ":" + port
  }

  /** `URL.origin`: scheme, host and port for special schemes, otherwise the
      opaque origin, serialised as "null". */
  function Origin(u: Url): string {
    if u.scheme in SpecialSchemes then u.scheme + "://" + Authority(u)
    else "null"
  }

  // ---------------------------------------------------------------------
  // Facts about the helpers
  // ---------------------------------------------------------------------

  lemma LowerHasNoUpper(s: string)
    ensures NoUpper(Lower(s))
  {
  }

  lemma LowerOfNoUpper(s: string)
    requires NoUpper(s)
    ensures Lower(s) == s
  {
  }

  lemma LowerKeepsScheme(s: string)
    requires IsSchemeText(s)
    ensures IsSchemeText(Lower(s))
  {
    var l := Lower(s);
    forall i | 0 <= i < |s|
      ensures IsSchemeChar(l[i])
    {
      assert IsSchemeChar(s[i]);
    }
  }

  /** Lower-casing cannot introduce a non-letter character. */
  lemma LowerKeepsNonLetters(s: string, stops: set<char>)
    requires forall c :: c in stops ==> !IsAlpha(c)
    requires NoneOf(s, stops)
    ensures NoneOf(Lower(s), stops)
  {
    var l := Lower(s);
    forall i | 0 <= i < |s|
      ensures l[i] !in stops
    {
      if 'A' <= s[i] <= 'Z' {
        assert IsAlpha(l[i]);
      }
    }
  }

  /** `FindFirst` is determined by its contract. */
  lemma FindFirstUnique(s: string, stops: set<char>, k: nat)
    requires k <= |s|
    requires forall j :: 0 <= j < k ==> s[j] !in stops
    requires k < |s| ==> s[k] in stops
    ensures FindFirst(s, stops) == k
  {
  }

  /** Scanning `a + b` skips over an `a` without stop characters. */
  lemma FindFirstAfter(a: string, b: string, stops: set<char>)
    requires NoneOf(a, stops)
    ensures FindFirst(a + b, stops) == |a| + FindFirst(b, stops)
  {
    var k := |a| + FindFirst(b, stops);
    var s := a + b;
    forall j | 0 <= j < k
      ensures s[j] !in stops
    {
      if j >= |a| {
        assert s[j] == b[j - |a|];
      }
    }
    if k < |s| {
      assert s[k] == b[k - |a|];
    }
    FindFirstUnique(s, stops, k);
  }

  // ---------------------------------------------------------------------
  // Serialisation and parsing are inverse
  // ---------------------------------------------------------------------

  /** Cutting `a + b` at the first stop character gives back `a` and `b` when
      `a` has no stop character and `b` begins with one (or is empty). */
  lemma SplitAtStop(a: string, b: string, stops: set<char>)
    requires NoneOf(a, stops)
    requires b == [] || b[0] in stops
    ensures FindFirst(a + b, stops) == |a|
    ensures (a + b)[..|a|] == a && (a + b)[|a|..] == b
  {
    FindFirstAfter(a, b, stops);
  }

  /** A scheme text followed by "://" splits off at its first ':'. */
  lemma SchemeSplitsOff(scheme: string, rest: string)
    requires IsSchemeText(scheme)
    ensures SplitScheme(scheme + "://" + rest) == Some((scheme, rest))
  {
    assert NoneOf(scheme, {':'}) by {
      forall j | 0 <= j < |scheme|
        ensures scheme[j] != ':'
      {
        assert IsSchemeChar(scheme[j]);
      }
    }
    var s := scheme + "://" + rest;
    assert s == scheme + ("://" + rest);
    SplitAtStop(scheme, "://" + rest, {':'});
    assert s[|scheme|..] == "://" + rest;
    assert s[|scheme| + 3..] == rest;
  }

  /** An authority without '/', '?' and '#' followed by a tail that starts with
      one of them (or is empty) splits back into the two. */
  lemma RestSplitsOff(authority: string, tail: string)
    requires NoneOf(authority, {'/', '?', '#'})
    requires tail == "" || tail[0] in {'/', '?', '#'}
    ensures SplitRest(authority + tail) == (authority, tail)
  {
    SplitAtStop(authority, tail, {'/', '?', '#'});
  }

  /** Host and port text serialise to an authority that splits back into them. */
  lemma SplitHostPort(host: string, port: string)
    requires NoneOf(host, {':'})
    requires AllDigits(port)
    ensures SplitAuthority(host + PortSuffix(port)) == (host, port)
  {
    SplitAtStop(host, PortSuffix(port), {':'});
    var authority := host + PortSuffix(port);
    if port != "" {
      assert authority[|host| + 1..] == port;
    } else {
      assert authority == host;
    }
  }

  /** A port suffix holds only ':' and digits. */
  lemma PortSuffixChars(port: string)
    requires AllDigits(port)
    ensures NoneOf(PortSuffix(port), {'/', '?', '#', '@'})
  {
    if port != "" {
      forall j | 0 <= j < |PortSuffix(port)|
        ensures PortSuffix(port)[j] !in {'/', '?', '#', '@'}
      {
        if j > 0 {
          assert PortSuffix(port)[j] == port[j - 1];
        }
      }
    }
  }

  /** Path, query and fragment text splits back into the three components. */
  lemma SplitPathQueryFragment(path: string, query: string, fragment: string)
    requires NoneOf(path, {'?', '#'})
    requires query == "" || (query[0] == '?' && NoneOf(query, {'#'}))
    requires fragment == "" || fragment[0] == '#'
    requires path == "" || path[0] == '/'
    ensures path + query + fragment == "" || (path + query + fragment)[0] in {'/', '?', '#'}
    ensures SplitTail(path + query + fragment) == (path, query, fragment)
  {
    var tail := path + query + fragment;
    assert tail == path + (query + fragment);
    assert query + fragment == [] || (query + fragment)[0] in {'?', '#'} by {
      if query == "" && fragment != "" {
        assert (query + fragment)[0] == fragment[0];
      }
    }
    SplitAtStop(path, query + fragment, {'?', '#'});
    SplitAtStop(query, fragment, {'#'});
    if tail != "" && path == "" {
      assert tail[0] == (query + fragment)[0];
    }
  }

  /** Re-assembling the components of a well-formed URL changes nothing. */
  lemma AssembleWellFormed(u: Url)
    requires WellFormed(u)
    ensures Assemble(u.scheme, u.host, u.port, u.path, u.query, u.fragment) == u
  {
    if u.scheme in SpecialSchemes {
      LowerOfNoUpper(u.host);
    }
  }

  /** The authority of a well-formed URL holds none of '/', '?', '#' and '@'. */
  lemma AuthorityChars(u: Url)
    requires WellFormed(u)
    ensures NoneOf(Authority(u), {'/', '?', '#', '@'})
  {
    var authority := Authority(u);
    PortSuffixChars(u.port);
    forall j | 0 <= j < |authority|
      ensures authority[j] !in {'/', '?', '#', '@'}
    {
      if j >= |u.host| {
        assert authority[j] == PortSuffix(u.port)[j - |u.host|];
      }
    }
  }

  /** The scheme splits off the text of a well-formed URL. */
  lemma HrefSplitsScheme(u: Url)
    requires WellFormed(u)
    ensures SplitScheme(Href(u)) == Some((u.scheme, Authority(u) + PathAndAfter(u)))
  {
    assert Href(u) == u.scheme + "://" + (Authority(u) + PathAndAfter(u));
    SchemeSplitsOff(u.scheme, Authority(u) + PathAndAfter(u));
  }

  /** The authority and the path, query and fragment split apart again. */
  lemma HrefSplitsRest(u: Url)
    requires NoneOf(Authority(u), {'/', '?', '#'})
    requires NoneOf(u.path, {'?', '#'}) && (u.path == "" || u.path[0] == '/')
    requires u.query == "" || (u.query[0] == '?' && NoneOf(u.query, {'#'}))
    requires u.fragment == "" || u.fragment[0] == '#'
    ensures SplitRest(Authority(u) + PathAndAfter(u)) == (Authority(u), PathAndAfter(u))
    ensures SplitTail(PathAndAfter(u)) == (u.path, u.query, u.fragment)
  {
    var p, q, f := u.path, u.query, u.fragment;
    var tail := p + q + f;
    assert PathAndAfter(u) == tail;
    SplitPathQueryFragment(p, q, f);
    assert SplitTail(tail) == (p, q, f);
    RestSplitsOff(Authority(u), tail);
  }

  /** The host and port split apart again, and the authority has no '@'. */
  lemma HrefSplitsAuthority(u: Url)
    requires WellFormed(u)
    ensures SplitAuthority(Authority(u)) == (u.host, u.port)
    ensures '@' !in Authority(u)
  {
    AuthorityChars(u);
    SplitHostPort(u.host, u.port);
  }

  /** When every splitting step succeeds, the parser assembles their pieces. */
  lemma ParseOfSplits(s: string, scheme: string, authority: string, tail: string,
                      host: string, port: string, path: string, query: string, fragment: string)
    requires SplitScheme(s) == Some((scheme, authority + tail))
    requires SplitRest(authority + tail) == (authority, tail)
    requires SplitAuthority(authority) == (host, port)
    requires SplitTail(tail) == (path, query, fragment)
    requires '@' !in authority && AllDigits(port)
    requires NoUpper(scheme) && !(scheme in SpecialSchemes && host == "")
    ensures ParseUrl(s) == Some(Assemble(scheme, host, port, path, query, fragment))
  {
    HostHasNoDelimiters(authority);
    LowerOfNoUpper(scheme);
  }

  /** Serialising a well-formed URL and parsing the text gives the URL back, so
      `Href` is a faithful text form of every URL the parser yields. */
  lemma ParseHref(u: Url)
    requires WellFormed(u)
    ensures ParseUrl(Href(u)) == Some(u)
  {
    ParseHrefAssembles(u);
    AssembleWellFormed(u);
  }

  /** Every splitting step of the parser recovers its piece of `Href(u)`. */
  lemma HrefSplits(u: Url)
    requires WellFormed(u)
    ensures SplitScheme(Href(u)) == Some((u.scheme, Authority(u) + PathAndAfter(u)))
    ensures SplitRest(Authority(u) + PathAndAfter(u)) == (Authority(u), PathAndAfter(u))
    ensures SplitTail(PathAndAfter(u)) == (u.path, u.query, u.fragment)
    ensures SplitAuthority(Authority(u)) == (u.host, u.port) && '@' !in Authority(u)
  {
    AuthorityChars(u);
    HrefSplitsRest(u);
    HrefSplitsAuthority(u);
    HrefSplitsScheme(u);
  }

  lemma ParseHrefAssembles(u: Url)
    requires WellFormed(u)
    ensures ParseUrl(Href(u)) == Some(Assemble(u.scheme, u.host, u.port, u.path, u.query, u.fragment))
  {
    HrefSplits(u);
    ParseOfSplits(Href(u), u.scheme, Authority(u), PathAndAfter(u),
                  u.host, u.port, u.path, u.query, u.fragment);
  }

  /** A special-scheme URL written as scheme, host and a non-empty path (no
      port, query or fragment) parses into exactly those components. */
  lemma ParseHostPath(scheme: string, host: string, path: string)
    requires scheme in SpecialSchemes
    requires host != "" && NoUpper(host) && NoneOf(host, {':', '/', '?', '#', '@'})
    requires path != "" && path[0] == '/' && NoneOf(path, {'?', '#'})
    ensures ParseUrl(scheme + "://" + host + path) == Some(Url(scheme, host, "", path, "", ""))
  {
    var u := Url(scheme, host, "", path, "", "");
    assert IsSchemeText(scheme) && NoUpper(scheme);
    assert WellFormed(u);
    assert Href(u) == scheme + "://" + host + path;
    ParseHref(u);
  }

  /** Parsing normalises: re-parsing the href of a parsed URL changes nothing. */
  lemma ParseIsIdempotent(s: string)
    requires ParseUrl(s).Some?
    ensures ParseUrl(Href(ParseUrl(s).value)) == ParseUrl(s)
  {
    var u := ParseUrl(s).value;
    ParsedIsWellFormed(s);
    ParseHref(u);
  }

  /** Text without a ':' is never an absolute URL. */
  lemma NoColonIsNotUrl(s: string)
    requires ':' !in s
    ensures ParseUrl(s) == None
  {
    FindFirstUnique(s, {':'}, |s|);
  }

  /** Two URLs that agree on scheme, host and port have the same origin, whatever
      their paths, queries and fragments. */
  lemma OriginIgnoresPath(u: Url, v: Url)
    requires u.scheme == v.scheme && u.host == v.host && u.port == v.port
    ensures Origin(u) == Origin(v)
  {
  }

  /** Conversely, two URLs of special schemes with the same origin agree on
      scheme, host and port. */
  lemma SameOriginSameAuthority(u: Url, v: Url)
    requires WellFormed(u) && WellFormed(v)
    requires u.scheme in SpecialSchemes
    requires Origin(u) == Origin(v)
    ensures u.scheme == v.scheme && u.host == v.host && u.port == v.port
  {
    assert v.scheme in SpecialSchemes;
    SchemeSplitsOff(u.scheme, Authority(u));
    SchemeSplitsOff(v.scheme, Authority(v));
    assert Origin(u) == u.scheme + "://" + Authority(u);
    assert Origin(v) == v.scheme + "://" + Authority(v);
    SplitHostPort(u.host, u.port);
    SplitHostPort(v.host, v.port);
  }

  /** A special-scheme URL's origin is the start of its href, up to the
      path, and is never the opaque "null". */
  lemma OriginPrefixesHref(u: Url)
    requires u.scheme in SpecialSchemes
    ensures HasPrefix(Href(u), Origin(u))
    ensures Origin(u) != "null"
  {
    var o := Origin(u);
    assert Href(u) == o + PathAndAfter(u);
    assert Href(u)[..|o|] == o;
    assert o[|u.scheme|] == ':';
  }

  /** Every URL of a non-special scheme has the opaque origin "null", so any two
      of them compare equal by origin. */
  lemma OpaqueOriginsCompareEqual(u: Url, v: Url)
    requires u.scheme !in SpecialSchemes && v.scheme !in SpecialSchemes
    ensures Origin(u) == Origin(v) == "null"
  {
  }

  // ---------------------------------------------------------------------
  // Appending a trailing '/'
  // ---------------------------------------------------------------------

  /** The URL with a final '/' added to its path, unless it already has one. */
  function WithTrailingSlash(u: Url): Url {
    if EndsWith(u.path, "/") then u else u.(path := u.path + "/")
  }

  /** The scheme, "://" and the rest split off make up the text again. */
  lemma SchemeSplitJoins(s: string)
    requires SplitScheme(s).Some?
    ensures s == SplitScheme(s).value.0 + "://" + SplitScheme(s).value.1
  {
    var i := FindFirst(s, {':'});
    assert s[i + 1] == s[i + 1..][..2][0] == '/';
    assert s[i + 2] == s[i + 1..][..2][1] == '/';
    assert s[i..i + 3] == "://";
    assert s == s[..i] + s[i..i + 3] + s[i + 3..];
  }

  /** Text appended after the scheme does not move the scheme split. */
  lemma SchemeSplitAppend(s: string, c: string)
    requires SplitScheme(s).Some?
    ensures SplitScheme(s + c) == Some((SplitScheme(s).value.0, SplitScheme(s).value.1 + c))
  {
    var i := FindFirst(s, {':'});
    var t := s + c;
    assert forall j :: 0 <= j < |s| ==> t[j] == s[j];
    FindFirstUnique(t, {':'}, i);
    assert t[..i] == s[..i];
    assert t[i + 1..] == s[i + 1..] + c;
    assert t[i + 3..] == s[i + 3..] + c;
  }

  /** The authority and the tail split off make up the rest again. */
  lemma RestSplitJoins(rest: string)
    ensures rest == SplitRest(rest).0 + SplitRest(rest).1
  {
  }

  /** A '/' appended after the authority ends up in the tail. */
  lemma RestSplitAppend(rest: string)
    ensures SplitRest(rest + "/") == (SplitRest(rest).0, SplitRest(rest).1 + "/")
  {
    var stops := {'/', '?', '#'};
    var a := FindFirst(rest, stops);
    var t := rest + "/";
    assert forall j :: 0 <= j < |rest| ==> t[j] == rest[j];
    FindFirstUnique(t, stops, a);
    assert t[..a] == rest[..a];
    assert t[a..] == rest[a..] + "/";
  }

  /** A tail without '?' and '#' is all path. */
  lemma TailAllPath(tail: string)
    requires NoneOf(tail, {'?', '#'}) && (tail == "" || tail[0] == '/')
    ensures SplitTail(tail) == (tail, "", "")
  {
    assert tail + "" + "" == tail;
    SplitPathQueryFragment(tail, "", "");
  }

  /** A tail without '?' and '#' is all path with a '/' appended too. */
  lemma TailAppendAllPath(tail: string)
    requires NoneOf(tail, {'?', '#'}) && (tail == "" || tail[0] == '/')
    ensures NoneOf(tail + "/", {'?', '#'}) && (tail + "/")[0] == '/'
    ensures SplitTail(tail + "/") == (tail + "/", "", "")
  {
    var t := tail + "/";
    forall j | 0 <= j < |t|
      ensures t[j] !in {'?', '#'}
    {
      if j < |tail| {
        assert t[j] == tail[j];
      }
    }
    if tail != "" {
      assert t[0] == tail[0];
    }
    TailAllPath(t);
  }

  /** The end of a text without stop characters has none either. */
  lemma NoneOfSuffix(a: string, b: string, stops: set<char>)
    requires NoneOf(a + b, stops)
    ensures NoneOf(b, stops)
  {
    forall j | 0 <= j < |b|
      ensures b[j] !in stops
    {
      assert b[j] == (a + b)[|a| + j];
    }
  }

  /** The parser on text whose pieces are known and whose tail is all path. */
  lemma ParseOfPieces(s: string, scheme: string, authority: string, tail: string, host: string, port: string)
    requires SplitScheme(s) == Some((scheme, authority + tail))
    requires SplitRest(authority + tail) == (authority, tail)
    requires SplitAuthority(authority) == (host, port)
    requires SplitTail(tail) == (tail, "", "")
    requires '@' !in authority && AllDigits(port)
    requires !(Lower(scheme) in SpecialSchemes && host == "")
    requires IsSchemeText(Lower(scheme)) && NoUpper(Lower(scheme))
    requires NoneOf(host, {':', '/', '?', '#', '@'})
    requires NoneOf(tail, {'?', '#'}) && (tail == "" || tail[0] == '/')
    ensures ParseUrl(s) == Some(Assemble(Lower(scheme), host, port, tail, "", ""))
  {
    HostHasNoDelimiters(authority);
    LowerKeepsScheme(scheme);
  }

  /** Assembling with a '/' added to a path that does not end in one adds
      the '/' to the assembled path, unless normalisation already put it
      there. */
  lemma AssembleAppendSlash(scheme: string, host: string, port: string, tail: string)
    requires IsSchemeText(scheme) && NoUpper(scheme)
    requires NoneOf(host, {':', '/', '?', '#', '@'})
    requires scheme in SpecialSchemes ==> host != ""
    requires AllDigits(port)
    requires NoneOf(tail, {'?', '#'}) && (tail == "" || tail[0] == '/')
    requires NoneOf(tail + "/", {'?', '#'}) && (tail + "/")[0] == '/'
    requires tail == "" || tail[|tail| - 1] != '/'
    ensures Assemble(scheme, host, port, tail + "/", "", "")
            == WithTrailingSlash(Assemble(scheme, host, port, tail, "", ""))
  {
    var u := Assemble(scheme, host, port, tail, "", "");
    if scheme in SpecialSchemes && tail == "" {
      assert u.path == "/";
      assert EndsWith(u.path, "/");
    } else {
      assert u.path == tail;
      assert !EndsWith(tail, "/");
    }
  }

  /** The pieces the parser splits an accepted text into. */
  lemma ParsePieces(s: string) returns (scheme: string, rest: string, authority: string, tail: string, host: string, port: string)
    requires ParseUrl(s).Some?
    ensures SplitScheme(s) == Some((scheme, rest))
    ensures SplitRest(rest) == (authority, tail)
    ensures SplitAuthority(authority) == (host, port)
    ensures '@' !in authority && AllDigits(port)
    ensures !(Lower(scheme) in SpecialSchemes && host == "")
  {
    scheme, rest := SplitScheme(s).value.0, SplitScheme(s).value.1;
    authority, tail := SplitRest(rest).0, SplitRest(rest).1;
    host, port := SplitAuthority(authority).0, SplitAuthority(authority).1;
  }

  /** The tail of a text without '?', '#' and a final '/' is all path and has
      no final '/' either. */
  lemma TailOfText(s: string, scheme: string, rest: string, authority: string, tail: string)
    requires SplitScheme(s) == Some((scheme, rest))
    requires SplitRest(rest) == (authority, tail)
    requires NoneOf(s, {'?', '#'}) && !EndsWith(s, "/")
    ensures rest == authority + tail
    ensures NoneOf(tail, {'?', '#'}) && (tail == "" || tail[0] == '/')
    ensures tail == "" || tail[|tail| - 1] != '/'
  {
    SchemeSplitJoins(s);
    RestSplitJoins(rest);
    assert s == scheme + "://" + authority + tail;
    NoneOfSuffix(scheme + "://" + authority, tail, {'?', '#'});
    if tail != "" {
      assert s[|s| - 1] == tail[|tail| - 1];
      assert s[|s| - 1..] == [s[|s| - 1]];
    }
  }

  /** The pieces of an accepted text without '?', '#' and a final '/', and
      the pieces of the same text with a '/' appended. */
  lemma AppendSlashPieces(s: string, scheme: string, authority: string, tail: string, host: string, port: string)
    requires SplitScheme(s) == Some((scheme, authority + tail))
    requires SplitRest(authority + tail) == (authority, tail)
    requires SplitAuthority(authority) == (host, port)
    requires '@' !in authority
    requires NoneOf(tail, {'?', '#'}) && (tail == "" || tail[0] == '/')
    ensures SplitScheme(s + "/") == Some((scheme, authority + (tail + "/")))
    ensures SplitRest(authority + (tail + "/")) == (authority, tail + "/")
    ensures SplitTail(tail) == (tail, "", "") && SplitTail(tail + "/") == (tail + "/", "", "")
    ensures NoneOf(tail + "/", {'?', '#'}) && (tail + "/")[0] == '/'
    ensures IsSchemeText(Lower(scheme)) && NoUpper(Lower(scheme))
    ensures NoneOf(host, {':', '/', '?', '#', '@'})
  {
    TailAllPath(tail);
    TailAppendAllPath(tail);
    SchemeSplitAppend(s, "/");
    RestSplitAppend(authority + tail);
    assert authority + tail + "/" == authority + (tail + "/");
    HostHasNoDelimiters(authority);
    LowerHasNoUpper(scheme);
    LowerKeepsScheme(scheme);
  }

  /** Parsing text (without query or fragment, not ending in '/') with a '/'
      appended gives the URL of the text with a final '/' on its path. */
  lemma ParseAppendSlash(s: string)
    requires ParseUrl(s).Some?
    requires NoneOf(s, {'?', '#'}) && !EndsWith(s, "/")
    ensures ParseUrl(s).value.query == "" && ParseUrl(s).value.fragment == ""
    ensures ParseUrl(s + "/") == Some(WithTrailingSlash(ParseUrl(s).value))
  {
    var scheme, rest, authority, tail, host, port := ParsePieces(s);
    TailOfText(s, scheme, rest, authority, tail);
    AppendSlashPieces(s, scheme, authority, tail, host, port);
    ParseOfPieces(s, scheme, authority, tail, host, port);
    ParseOfPieces(s + "/", scheme, authority, tail + "/", host, port);
    AssembleAppendSlash(Lower(scheme), host, port, tail);
  }
}
